=== FILE: README.md ===
# CampusHub chat and form rules, modelled in Dafny

CampusHub is a campus companion web app: a marketplace, a community activity
board and one-to-one chats about listings and posts, written as React views
over a hosted backend. This project extracts the rules that the hooks and
components apply inline and models them as pure functions over immutable
state, with proofs:

- the chat tables (`chats`, `messages`, `typing_indicators`) as sequences and
  maps of rows, and the realtime change events as datatypes;
- the message list reducers of `useMessaging` and `useChat` (INSERT appends,
  UPDATE replaces by id, auto-read in `useMessaging` only);
- the typing map reducer and `setTyping`, with a proof that a peer's map
  mirrors the table;
- `sendMessage`, `markMessageAsRead` / `markAsRead` and `createOrGetChat`
  (the unordered-pair chat directory);
- the chat dialog controller: send guard and reset, the 2000 ms typing
  debounce over an integer millisecond clock, the typing indicator and the
  read receipts;
- the tag and image-URL list editors and the submit guards of the two forms;
- the three-step college verification flow;
- the marketplace and community filters, the start-chat guard, the seller
  name and the button visibility.

Files: `base.dfy` (Option, order-preserving filter, duplicate freedom),
`text.dfy` (JavaScript `trim`, ASCII `toLowerCase`, `includes`),
`chat_rows.dfy`, `message_store.dfy`, `message_feed.dfy`, `typing_state.dfy`,
`chat_directory.dfy`, `chat_dialog.dfy`, `list_editor.dfy`,
`create_post_form.dfy`, `add_item_form.dfy`, `college_verification.dfy`,
`marketplace.dfy`, `community.dfy`.

Conventions. Identifiers are strings. JavaScript truthiness of an id is
"present and not empty" (`ChatRows.Present`). Timestamps are integer
milliseconds. Values the code reads from the clock (`new Date()`) and ids the
backend assigns are parameters. A failing backend call is a `Fault` parameter
in the chat directory. The error toast it raises is not modelled.

Behaviour of the code worth knowing, which the model keeps:

- `createOrGetChat` looks the chat up with `.single()`. The backend reports
  "zero rows" and "more than one row" with the same error code, and the code
  treats that code as "not found". So with two or more matching chats the code
  creates yet another chat rather than failing. `ChatDirectory.CreateOrGetChat`
  models this (the `!= 1` case). `CreateKeepsUnique` proves that sequential
  calls never store a pair twice, so the case arises only from concurrent
  creation, which is outside this model.
- `markMessageAsRead` does not check who the reader is. Only the auto-read
  path skips the user's own messages (`MessageFeed.ReceiveInsert`).
- The INSERT handler does not de-duplicate by id
  (`MessageFeed.InsertDoesNotDeduplicate`).
- The history fetch and the INSERT subscription start in the same effect
  (src/hooks/useMessaging.tsx:23-28), and the fetch's `setMessages(data || [])`
  replaces the whole list. So an INSERT that arrives before the fetch resolves
  is lost (`MessageFeed.InsertDuringFetchIsLost`). A row already in the
  fetched snapshot whose INSERT arrives afterwards is listed twice
  (`MessageFeed.InsertAfterLoadDuplicates`).
- `handleSend` does not cancel the pending typing timeout. A second "typing
  false" call therefore follows 2000 ms after the last keystroke.
- A chat is a `chats` row with a creator and a participant. Typing state is
  a `typing_indicators` table whose changes reach peers as database change
  events.
- `Marketplace` mounts `ChatDialog` only while a chat is active and unmounts
  it on close, and `open` is always true while it is mounted
  (src/components/Marketplace.tsx:214-219). So in this app the dialog's close
  effect (src/components/ChatDialog.tsx:37-42) never runs. Typing is cleared
  by the pending 2000 ms timeout, which still fires after unmount. The model
  keeps the effect as the component defines it (the `Close` input).
- College verification checks the ID, email and code when a button is
  clicked. The result arrives 2000 ms or 1500 ms later. Meanwhile the
  buttons are disabled but the text inputs are not. So the flow can reach
  the code step with an email edited to blank, or `verified` with a shortened
  code (`CollegeVerification.EmailEditedInFlight`, `CodeEditedInFlight`).
- `handleSend` awaits `sendMessage` before it clears the draft
  (src/components/ChatDialog.tsx:50-51). Text typed while the insert is in
  flight is therefore wiped.
- The typing map starts empty and is never loaded from the table. Someone who
  joins mid-session sees only later changes. `SetTypingKeepsMirror` assumes
  the map and the table agree to begin with.

## Model

| member | source | states |
|---|---|---|
| Text.Trim | src/hooks/useMessaging.tsx:132 | `trim` returns an infix of the input with only whitespace cut from either end. The infix neither starts nor ends with whitespace, and it is empty exactly when the input is blank (the `!content.trim()` guard) |
| Text.Utf16Length | src/components/CollegeVerification.tsx:56 | JavaScript `length`: a character outside the Basic Multilingual Plane counts two, any other one. The length lies between the number of characters and twice that, and equals the number of characters exactly when none is outside the Basic Multilingual Plane |
| Text.Utf16Append | src/components/CollegeVerification.tsx:56 | the length of a concatenation is the sum of the lengths; with the one-character case this determines `length` completely |
| Text.Lower | src/components/Marketplace.tsx:28-29 | `toLowerCase` keeps the length and lower-cases each letter in place; `LowerIdempotent` shows that lowering twice equals lowering once |
| Text.Contains | src/components/CollegeVerification.tsx:33 | `includes` holds exactly when the needle occurs at some position of the text |
| MessageStore.SendMessage | src/hooks/useMessaging.tsx:131-141 | no insert without a chat id, without a user, or for blank content. Otherwise exactly one insert, for this chat and sender, whose content is the trimmed text, non-blank and already trimmed |
| MessageStore.InsertKeepsWellFormed | src/hooks/useMessaging.tsx:135-141 | an insert with a fresh id at a later time keeps ids unique and creation order, and puts the new id at the end |
| MessageStore.MarkRead | src/hooks/useMessaging.tsx:154-164 | no-op without a user. Otherwise the row with that id becomes read and is stamped with the time. Every other row, and every other field, is unchanged. The reader is not checked. `markAsRead` in useChat.tsx:108-118 is identical |
| MessageStore.MarkReadMonotone | src/hooks/useMessaging.tsx:158-164 | the read flag never goes back, and marking twice leaves the message read |
| MessageStore.MarkReadKeepsWellFormed | src/hooks/useChat.tsx:108-118 | marking read keeps ids, positions and creation order |
| MessageStore.History | src/hooks/useMessaging.tsx:34-45 | the loaded history is exactly the chat's messages, as a subsequence of the table |
| MessageStore.HistoryInCreationOrder | src/hooks/useMessaging.tsx:38-42 | the history is in ascending creation time |
| MessageFeed.OnInsert | src/hooks/useMessaging.tsx:69 | INSERT appends the row after the unchanged list, as `[...prev, payload.new]` does (also src/hooks/useChat.tsx:66) |
| MessageFeed.OnUpdate | src/hooks/useMessaging.tsx:80-84 | UPDATE replaces every listed message with the row's id, keeps the length and keeps every other message |
| MessageFeed.UpdateKeepsIds | src/hooks/useChat.tsx:73-77 | an UPDATE changes no id and moves nothing |
| MessageFeed.ApplyAllIds | src/hooks/useChat.tsx:58-77 | after any run of realtime events without a history load, the list holds the initial ids, then the inserted ids in arrival order |
| MessageFeed.LoadDiscardsEarlier | src/hooks/useMessaging.tsx:45 | the history load replaces the list: whatever arrived before it is gone, and the list continues from the loaded rows |
| MessageFeed.InsertDuringFetchIsLost | src/hooks/useMessaging.tsx:23-45 | a message inserted after the fetch read its snapshot, whose INSERT arrives before the fetch resolves, is in the chat's history but not in the list |
| MessageFeed.InsertAfterLoadDuplicates | src/hooks/useMessaging.tsx:45-69 | a row already in the loaded history whose INSERT arrives after the load is listed twice |
| MessageFeed.UpdateIdempotent | src/hooks/useChat.tsx:74-76 | delivering an UPDATE twice equals delivering it once |
| MessageFeed.UpdateOfAbsentIsNoOp | src/hooks/useMessaging.tsx:81-83 | an UPDATE for an id not in the list changes nothing |
| MessageFeed.InsertDoesNotDeduplicate | src/hooks/useMessaging.tsx:69 | re-delivering a row whose id is listed makes the id appear twice |
| MessageFeed.AutoReadTarget | src/hooks/useMessaging.tsx:70-73 | the incoming message is marked read unless the signed-in user sent it |
| MessageFeed.ReceiveInsert | src/hooks/useMessaging.tsx:68-74 | the list grows exactly as in useChat. When another user sent the message and someone is signed in, the table's row for it becomes that row with `is_read` true and `read_at` now; otherwise the table is unchanged. No other row changes |
| TypingState.OnTypingEvent | src/hooks/useMessaging.tsx:102-123 | only the key the event names can change. DELETE removes it. INSERT/UPDATE from another user sets it to `is_typing`. Events from the signed-in user change nothing |
| TypingState.OwnEventsIgnored | src/hooks/useMessaging.tsx:114-121 | the signed-in user never enters their own map, and events about them, DELETE included, leave it unchanged |
| TypingState.SetTyping | src/hooks/useMessaging.tsx:172-199 | no-op without chat or user. `true` upserts the (chat, user) row as typing and emits INSERT or UPDATE. `false` deletes that row and emits DELETE only if it existed. No other row changes |
| TypingState.SetTypingKeepsMirror | src/hooks/useMessaging.tsx:92-124 | a peer's typing map keeps showing exactly the other users with a row for the chat, with their flags, through every `setTyping` once its event is delivered |
| ChatDirectory.CreateOrGetChat | src/hooks/useMessaging.tsx:201-248 | null without a user or on lookup failure. A single match returns its id and writes nothing. Zero or several matches create a chat with the user as creator and the counterpart as participant, unless the insert fails. A returned id always names a stored chat for this reference and pair |
| ChatDirectory.MatchingSymmetric | src/hooks/useMessaging.tsx:215 | the lookup gives the same rows whichever side asks |
| ChatDirectory.AtMostOneMatch | src/hooks/useChat.tsx:135-141 | while no pair is stored twice, the lookup finds at most one chat |
| ChatDirectory.CreateKeepsUnique | src/hooks/useChat.tsx:145-163 | sequential calls never store the same (kind, reference, pair) twice |
| ChatDirectory.CreateLeavesOneMatch | src/hooks/useChat.tsx:126-163 | after a successful call exactly one chat matches, and it has the returned id |
| ChatDirectory.SwappedRolesSameChat | src/hooks/useMessaging.tsx:209-238 | once one side has the chat, the other side asking with roles swapped gets the same id and nothing is created |
| ChatDialog.SendDisabled | src/components/ChatDialog.tsx:152 | the send button is disabled exactly when the draft is blank |
| ChatDialog.HandleSend | src/components/ChatDialog.tsx:48-53 | a blank draft does nothing. Otherwise it sends the draft, sets typing false, empties the draft and keeps the pending timeout |
| ChatDialog.Step | src/components/ChatDialog.tsx:37-67 | a due timeout fires first, making exactly the calls of `Due` and leaving none pending. A keystroke then stores the text, calls typing true and re-arms the timeout 2000 ms ahead. A non-blank submit sends the draft as typed, calls typing false and empties the draft; a blank one adds nothing. Close with a chat id adds typing false; wait adds nothing |
| ChatDialog.DebounceMatchesReference | src/components/ChatDialog.tsx:55-66 | a run of keystrokes makes exactly the calls of the reference debounce: true per keystroke, and false 2000 ms after each keystroke not followed by another within 2000 ms |
| ChatDialog.FalseOnlyAfterQuietPeriod | src/components/ChatDialog.tsx:58-64 | typing false is only emitted 2000 ms after a keystroke followed by at least 2000 ms of quiet |
| ChatDialog.QuietPeriodEndsTyping | src/components/ChatDialog.tsx:62-64 | 2000 ms after the last keystroke, typing false is the last call |
| ChatDialog.SendStoresTrimmedDraft | src/components/ChatDialog.tsx:48-52 | the send makes no call exactly when the button is disabled. A sent draft reaches the store as one insert of its trimmed text |
| ChatDialog.IndicatorShown | src/components/ChatDialog.tsx:120 | the indicator shows exactly when some user in the map is typing |
| ChatDialog.IndicatorFollowsPeers | src/components/ChatDialog.tsx:120-129 | a peer's typing row turns the indicator on. Deleting the only typing peer's row turns it off |
| ChatDialog.ReceiptFor | src/components/ChatDialog.tsx:90-113 | receipts appear only on one's own messages: two ticks exactly when read, one otherwise |
| ChatDialog.ReceiptTurnsDoubleAfterRead | src/components/ChatDialog.tsx:108-113 | a new message shows one tick. After the recipient's read mark comes back as an UPDATE it shows two |
| ListEditor.Add | src/components/CreatePostForm.tsx:49-54 | a non-empty, absent input is appended and the box cleared. Otherwise nothing changes. The list stays duplicate-free |
| ListEditor.AddTwice | src/components/CreatePostForm.tsx:49-54 | a second click on "add" changes nothing: the first cleared the box, and an empty box adds nothing |
| ListEditor.Remove | src/components/CreatePostForm.tsx:56-58 | the value is gone, every other entry stays in its relative order, and duplicate freedom is kept |
| ListEditor.RemoveUndoesAdd | src/components/AddItemForm.tsx:49-58 | removing what was just added restores the list |
| CreatePostForm.AddTag | src/components/CreatePostForm.tsx:49-54 | `addTag` appends a new non-empty tag and clears the box, or changes nothing. Other fields are untouched |
| CreatePostForm.RemoveTag | src/components/CreatePostForm.tsx:56-58 | `removeTag` drops the tag and keeps the others in order |
| CreatePostForm.Submit | src/components/CreatePostForm.tsx:27-47 | an empty title or activity type emits nothing and changes nothing. Otherwise the current values are emitted and every field is reset |
| CreatePostForm.SubmitResets | src/components/CreatePostForm.tsx:34-46 | after a successful submit, submitting again emits nothing |
| CreatePostForm.TagsStayDistinct | src/components/CreatePostForm.tsx:20-58 | under any sequence of actions the tags never hold a duplicate, and every emitted post has a title, a type and distinct tags |
| AddItemForm.AddImageUrl | src/components/AddItemForm.tsx:49-54 | `addImageUrl` appends a new non-empty URL and clears the box, or changes nothing |
| AddItemForm.RemoveImageUrl | src/components/AddItemForm.tsx:56-58 | `removeImageUrl` drops the URL and keeps the others in order |
| AddItemForm.Submit | src/components/AddItemForm.tsx:27-47 | an empty title or price text emits nothing. Otherwise the values are emitted and all fields reset |
| AddItemForm.SubmitResets | src/components/AddItemForm.tsx:34-46 | after a successful submit, submitting again emits nothing |
| AddItemForm.ImageUrlsStayDistinct | src/components/AddItemForm.tsx:20-58 | under any sequence of actions the URLs never hold a duplicate, and every emitted item has a title, a price and distinct URLs |
| CollegeVerification.SendOtp | src/components/CollegeVerification.tsx:23-53 | a blank ID or email is refused (Missing Information). An email without both "@" and ".edu" anywhere is refused (Invalid Email). Otherwise the request for the current address starts, and nothing else changes |
| CollegeVerification.VerifyOtp | src/components/CollegeVerification.tsx:55-81 | a code whose JavaScript length (UTF-16 code units) is not 6 is refused (Invalid OTP). Otherwise the verify request starts; the code's value is never compared |
| CollegeVerification.Next | src/components/CollegeVerification.tsx:112-235 | on the details step the ID and email boxes store what is typed; on the code step the code box stores an entry of at most six UTF-16 units and ignores a longer one. With nothing in flight, "send" and "resend" behave as `SendOtp`, "verify" as `VerifyOtp` when the code has six units (otherwise the button is disabled), and "back" returns to the details step changing nothing else. Edits never change the step, the request or the toasts. While a request is in flight every button is inert. The timer firing changes none of the inputs, completes a pending request with a toast and does nothing otherwise. The verified screen ignores every action |
| CollegeVerification.Complete | src/components/CollegeVerification.tsx:45-80 | a code request completes on the code step with an "OTP Sent" toast naming the address it was sent to; a verify request completes on `verified` with the success toast. Nothing is in flight afterwards and the ID, email and code are untouched |
| CollegeVerification.BackReturnsToDetails | src/components/CollegeVerification.tsx:211-216 | "back" from the idle code step returns to the details with the ID, email and typed code kept. Sending from there requests a code for the same details, and once it arrives the flow is exactly where it was before "back" |
| CollegeVerification.ResendStaysOnCodeStep | src/components/CollegeVerification.tsx:224-230 | "resend" from the idle code step requests a new code for the current details. Once it arrives the flow is unchanged apart from a fresh "OTP Sent" toast. If the details were edited so that they no longer pass, resend is refused with an error toast and nothing changes |
| CollegeVerification.NextIsLegal | src/components/CollegeVerification.tsx:112-235 | from a consistent state every action is a legal step transition and keeps consistency. A code request starts only if the details pass the checks at that moment, and remembers that address. A verify request starts only on the code step with a six-unit code. The code step is entered from the details, and `verified` is entered at all, only when the matching request completes |
| CollegeVerification.RunStaysConsistent | src/components/CollegeVerification.tsx:16-100 | every state reachable from a consistent one is consistent: a pending code request is for a checked address, a pending verify request is on the code step, nothing is pending on the verified screen. `verified` is terminal under any actions |
| CollegeVerification.OtpSentToCheckedAddress | src/components/CollegeVerification.tsx:45-51 | the "OTP Sent" toast names the address checked at click time, which passed the checks |
| CollegeVerification.EmailEditedInFlight | src/components/CollegeVerification.tsx:42-52 | once the code request has started, the email can be changed to anything, blank included, and the flow still reaches the code step, holding the new email |
| CollegeVerification.CodeEditedInFlight | src/components/CollegeVerification.tsx:65-80 | once a six-unit code is being verified, it can be replaced by any code the box accepts, a shorter one included, and the flow still reaches `verified`, holding the new code |
| CollegeVerification.AnySixCharacterCodeVerifies | src/components/CollegeVerification.tsx:56-70 | from the idle code step, any code of six UTF-16 units verifies once its request completes: the code's value is never checked |
| Marketplace.FilteredItems | src/components/Marketplace.tsx:27-30 | exactly the listings whose title or non-empty description contains the query case-insensitively, in original order |
| Marketplace.EmptySearchKeepsAll | src/components/Marketplace.tsx:27-30 | an empty search keeps every listing in order |
| Marketplace.QueryCaseIgnored | src/components/Marketplace.tsx:28-29 | the query's letter case does not change the result |
| Marketplace.LongerQueryNarrows | src/components/Marketplace.tsx:28 | extending the query only removes listings |
| Marketplace.ShowMessageSeller | src/components/Marketplace.tsx:193 | "Message Seller" is offered when someone is signed in who is not the seller; its partner is `ButtonsExclusive` |
| Marketplace.ShowDelete | src/components/Marketplace.tsx:139 | delete is offered on the signed-in user's own listings; its partner is `ButtonsExclusive` |
| Marketplace.ButtonsExclusive | src/components/Marketplace.tsx:139-206 | "Message Seller" and delete never show together. A signed-in user sees exactly one. Delete shows exactly on one's own listings |
| Marketplace.StartChat | src/components/Marketplace.tsx:48-58 | no-op without a user or on one's own listing. Otherwise the directory call's table is kept. A returned id opens the dialog on that chat, titled "Chat about: " plus the item title; no id leaves the dialog as it was. Any newly opened dialog names a stored chat about this item with the seller |
| Marketplace.StartChatNeedsMessageButton | src/components/Marketplace.tsx:193-197 | where "Message Seller" is not shown, starting a chat changes nothing |
| Marketplace.SellerName | src/components/Marketplace.tsx:67-72 | the profile's "first last" for one's own listing once the profile is loaded, "Unknown Seller" otherwise; `OtherSellersUnnamed` is its partner |
| Marketplace.OtherSellersUnnamed | src/components/Marketplace.tsx:67-72 | a listing that is not one's own always shows "Unknown Seller", whatever profile is loaded |
| Community.FilteredActivities | src/components/Community.tsx:72-77 | exactly the activities passing both the case-insensitive search and the type filter, in original order |
| Community.AllWithEmptySearchKeepsEverything | src/components/Community.tsx:73-75 | `all` with an empty search keeps every activity |
| Community.SpecificTypeOnly | src/components/Community.tsx:75 | with a specific type selected every result has that type |
| Community.TypeFilterNarrows | src/components/Community.tsx:75-76 | selecting one type keeps a subset of what `all` shows |

## Left out

- Backend calls: every query, insert, update, upsert and delete is a function on in-memory tables. Error toasts, console logging and the hooks' `loading` flags are not modelled.
- Realtime plumbing: subscribing, `removeChannel` and `removeAllChannels` are platform concurrency. Incoming changes are an explicit sequence of events.
- Timers: `setTimeout` and `clearTimeout` become a `Timer` over an integer clock. A timeout due exactly when an input arrives fires first.
- The close effect in `ChatDialog` would re-run on every render while closed, because `setTyping` is a new function each render. The model emits one "typing false" per close. In this app the effect does not run at all (see above).
- ChatDialog.HandleSend: the send is one atomic step. Text typed while `sendMessage` is awaited, which the code then wipes, is not modelled.
- Scrolling, rendering, styling and `date-fns` time formatting.
- College verification: the lengths of the simulated 2000 ms and 1500 ms delays (a request completes at some later `TimerFires`, with any edits in between), and the final `onVerificationComplete` callback 2000 ms after success.
- CollegeVerification.NextIsLegal / RunStaysConsistent: the checks hold for the values at click time. Neither promises that the details or the code shown on a later step passed the checks, because the inputs stay editable while a request is in flight (`EmailEditedInFlight`, `CodeEditedInFlight`).
- CollegeVerification.RunStaysConsistent: see the line above. Reaching the code step or `verified` says nothing about the current input values.
- CollegeVerification.Next: the code widget's own input handling (slicing pasted text to six units, any character pattern) is not modelled. An edit longer than six code units is ignored.
- AddItemForm.Submit: the price is emitted as the text typed; `parseFloat` is not modelled because it is floating-point parsing. The browser's own validation of the price box (`type="number"`, `min="0"`, `step="0.01"`, `required`, src/components/AddItemForm.tsx:95-104) is not modelled either: the browser blocks the submit for a negative or off-step price such as "-5" or "1.005" before `handleSubmit` runs, while the model emits an item for any non-empty price text.
- `toLowerCase` lower-cases ASCII letters only. Other Unicode case mappings are not modelled.
- Marketplace price formatting (`Intl.NumberFormat`), listing dates, `handleAddItem` and `handleDeleteItem` (backend calls behind `window.confirm`).
- Academic GPA (floating point), Auth, Profile, Navigation, Index and the CRUD hooks `useMarketplace`, `useCommunity` and `useProfile`, which are thin wrappers or static views.
- The `typing_indicators` and `chats` schemas are not in the generated types. Their fields come from the use sites, and the upsert is assumed to conflict on (chat id, user id).
- TypingState.SetTypingKeepsMirror: delivery (`Deliver`) assumes every DELETE event is filtered to this chat and carries the old row's `user_id`. Realtime database-change filters do not apply to DELETE events, so deleting a user's typing row in another chat would also remove that user from this chat's map. With default replica identity the old row carries only its primary key. Unless that key includes `user_id`, the DELETE is then ignored. Neither case is modelled.
- MessageStore.History: `order('created_at')` is taken as table order. `HistoryInCreationOrder` shows that this is creation order whenever the table is. A failed fetch (error toast, list unchanged) is not modelled; a successful one is the `Loaded` event, with `data` never null.

=== FILE: add_item_form.dfy ===
/** The "add marketplace item" form: title, description, price text and a
    duplicate-free list of image URLs. */
module AddItemForm {
  import opened Base
  import opened ListEditor

  datatype ItemForm = ItemForm(title: string, description: string, price: string, images: Editor)

  const EmptyItemForm := ItemForm("", "", "", Editor("", []))

  /** What the form hands to `onSubmit`; the price stays the text typed. */
  datatype ItemData = ItemData(title: string, description: string, price: string, imageUrls: seq<string>)

  datatype ItemAction =
    | EditTitle(text: string)
    | EditDescription(text: string)
    | EditPrice(text: string)
    | EditImageUrl(text: string)
    | AddImageUrl
    | RemoveImageUrl(url: string)
    | SubmitItem

  /** `addImageUrl`: a non-empty URL not yet listed is appended and the URL
      box cleared; otherwise nothing changes. */
  function AddImageUrl(f: ItemForm): (r: ItemForm)
    ensures r.title == f.title && r.description == f.description && r.price == f.price
    ensures f.images.input == [] || f.images.input in f.images.items ==> r == f
    ensures f.images.input != [] && f.images.input !in f.images.items ==>
      r.images.items == f.images.items + [f.images.input] && r.images.input == []
  {
    f.(images := Add(f.images))
  }

  /** `removeImageUrl(u)`: `u` is gone, the other URLs keep their order. */
  function RemoveImageUrl(f: ItemForm, u: string): (r: ItemForm)
    ensures r.title == f.title && r.description == f.description && r.price == f.price
    ensures r.images.input == f.images.input
    ensures u !in r.images.items
    ensures forall x :: x in r.images.items <==> x in f.images.items && x != u
    ensures IsSubsequence(r.images.items, f.images.items)
  {
    f.(images := Remove(f.images, u))
  }

  /** `handleSubmit`: with an empty title or empty price text nothing is
      emitted and nothing changes; otherwise the values are emitted and title,
      description, price, URL box and URL list are reset. */
  function Submit(f: ItemForm): (r: (ItemForm, Option<ItemData>))
    ensures f.title == [] || f.price == [] ==> r == (f, None)
    ensures f.title != [] && f.price != [] ==>
      r.0 == EmptyItemForm &&
      r.1 == Some(ItemData(f.title, f.description, f.price, f.images.items))
  {
    if f.title == [] || f.price == [] then (f, None)
    else (EmptyItemForm, Some(ItemData(f.title, f.description, f.price, f.images.items)))
  }

  /** A successful submit resets the form, so submitting again at once emits
      nothing: an item cannot be listed twice by a double submit. */
  lemma SubmitResets(f: ItemForm)
    requires Submit(f).1.Some?
    ensures Submit(Submit(f).0) == (EmptyItemForm, None)
    ensures Submit(f).1.value.title == f.title && Submit(f).1.value.imageUrls == f.images.items
  {
  }

  function Step(f: ItemForm, a: ItemAction): (ItemForm, Option<ItemData>)
  {
    match a
    case EditTitle(t) => (f.(title := t), None)
    case EditDescription(t) => (f.(description := t), None)
    case EditPrice(t) => (f.(price := t), None)
    case EditImageUrl(t) => (f.(images := f.images.(input := t)), None)
    case AddImageUrl => (AddImageUrl(f), None)
    case RemoveImageUrl(u) => (RemoveImageUrl(f, u), None)
    case SubmitItem => Submit(f)
  }

  /** A session of actions: the final form and everything submitted, in order. */
  function Run(f: ItemForm, actions: seq<ItemAction>): (ItemForm, seq<ItemData>)
    decreases |actions|
  {
    if |actions| == 0 then (f, [])
    else
      var (f1, out) := Step(f, actions[0]);
      var (f2, rest) := Run(f1, actions[1..]);
      (f2, (if out.Some? then [out.value] else []) + rest)
  }

  /** Whatever the user does, the URL list never holds a duplicate, and every
      submitted item has a title, a price and distinct URLs. */
  lemma {:induction false} ImageUrlsStayDistinct(f: ItemForm, actions: seq<ItemAction>)
    requires NoDuplicates(f.images.items)
    ensures NoDuplicates(Run(f, actions).0.images.items)
    ensures forall d :: d in Run(f, actions).1 ==>
      d.title != [] && d.price != [] && NoDuplicates(d.imageUrls)
    decreases |actions|
  {
    if |actions| > 0 {
      var (f1, out) := Step(f, actions[0]);
      assert NoDuplicates(f1.images.items) by {
        if actions[0].SubmitItem? && f.title != [] && f.price != [] {
          assert f1 == EmptyItemForm;
        }
      }
      ImageUrlsStayDistinct(f1, actions[1..]);
    }
  }
}

=== FILE: base.dfy ===
/** Shared building blocks: an optional value (the source's `null` / `undefined`)
    and the order-preserving sequence operations the components use
    (`Array.prototype.filter`, `includes`). */
module Base {

  /** A value that may be absent, as a nullable field or an optional prop. */
  datatype Option<+T> = None | Some(value: T)

  /** `a` can be obtained from `b` by deleting elements: `a` keeps the
      relative order of the elements it takes from `b`. */
  predicate IsSubsequence<T(==)>(a: seq<T>, b: seq<T>)
    decreases |b|
  {
    |a| == 0 ||
    (|b| > 0 &&
      ((a[0] == b[0] && IsSubsequence(a[1..], b[1..])) || IsSubsequence(a, b[1..])))
  }

  /** No element occurs twice. */
  predicate NoDuplicates<T(==)>(s: seq<T>)
  {
    forall i, j :: 0 <= i < j < |s| ==> s[i] != s[j]
  }

  /** `s.filter(p)`: the elements of `s` that satisfy `p`, in their original order. */
  function Filter<T>(s: seq<T>, p: T -> bool): (r: seq<T>)
    ensures |r| <= |s|
    ensures forall x :: x in r ==> x in s && p(x)
    ensures forall x :: x in s && p(x) ==> x in r
    ensures IsSubsequence(r, s)
    decreases |s|
  {
    if |s| == 0 then []
    else if p(s[0]) then [s[0]] + Filter(s[1..], p)
    else Filter(s[1..], p)
  }

  /** A filter that rejects nothing returns its input unchanged. */
  lemma {:induction false} FilterKeepsAll<T>(s: seq<T>, p: T -> bool)
    requires forall x :: x in s ==> p(x)
    ensures Filter(s, p) == s
    decreases |s|
  {
    if |s| > 0 {
      assert s[0] in s;
      forall x | x in s[1..] ensures p(x) {
        assert x in s;
      }
      FilterKeepsAll(s[1..], p);
      assert s == [s[0]] + s[1..];
    }
  }

  /** A filter that rejects everything returns the empty sequence. */
  lemma {:induction false} FilterDropsAll<T>(s: seq<T>, p: T -> bool)
    requires forall x :: x in s ==> !p(x)
    ensures Filter(s, p) == []
    decreases |s|
  {
    if |s| > 0 {
      assert s[0] in s;
      forall x | x in s[1..] ensures !p(x) {
        assert x in s;
      }
      FilterDropsAll(s[1..], p);
    }
  }

  /** Filtering a duplicate-free sequence yields a duplicate-free sequence. */
  lemma {:induction false} FilterNoDuplicates<T>(s: seq<T>, p: T -> bool)
    requires NoDuplicates(s)
    ensures NoDuplicates(Filter(s, p))
    decreases |s|
  {
    if |s| > 0 {
      var rest := s[1..];
      assert NoDuplicates(rest) by {
        forall i, j | 0 <= i < j < |rest| ensures rest[i] != rest[j] {
          assert rest[i] == s[i + 1] && rest[j] == s[j + 1];
        }
      }
      FilterNoDuplicates(rest, p);
      if p(s[0]) {
        var fr := Filter(rest, p);
        assert s[0] !in rest by {
          forall k | 0 <= k < |rest| ensures rest[k] != s[0] {
            assert rest[k] == s[k + 1];
          }
        }
        assert s[0] !in fr;
        var r := [s[0]] + fr;
        forall i, j | 0 <= i < j < |r| ensures r[i] != r[j] {
          if i == 0 {
            assert r[j] == fr[j - 1];
            assert r[j] in fr;
          } else {
            assert r[i] == fr[i - 1] && r[j] == fr[j - 1];
          }
        }
      }
    }
  }

  /** Every element equal to `v` removed, as `s.filter(x => x !== v)`. */
  function RemoveAll<T(==)>(s: seq<T>, v: T): (r: seq<T>)
    ensures v !in r
    ensures forall x :: x in s && x != v ==> x in r
    ensures forall x :: x in r ==> x in s
    ensures IsSubsequence(r, s)
    ensures NoDuplicates(s) ==> NoDuplicates(r)
  {
    var r := Filter(s, x => x != v);
    assert NoDuplicates(s) ==> NoDuplicates(r) by {
      if NoDuplicates(s) {
        FilterNoDuplicates(s, x => x != v);
      }
    }
    r
  }

  /** Appending an element that was absent and then removing it restores the sequence. */
  lemma {:induction false} RemoveAfterAppend<T>(s: seq<T>, v: T)
    requires v !in s
    ensures RemoveAll(s + [v], v) == s
    decreases |s|
  {
    if |s| == 0 {
      assert [v][1..] == [];
    } else {
      assert (s + [v])[0] == s[0];
      assert (s + [v])[1..] == s[1..] + [v];
      assert v !in s[1..] by {
        forall k | 0 <= k < |s[1..]| ensures s[1..][k] != v {
          assert s[1..][k] == s[k + 1];
        }
      }
      RemoveAfterAppend(s[1..], v);
      assert s == [s[0]] + s[1..];
    }
  }

  /** Removing a value that does not occur changes nothing. */
  lemma RemoveAbsent<T>(s: seq<T>, v: T)
    requires v !in s
    ensures RemoveAll(s, v) == s
  {
    FilterKeepsAll(s, x => x != v);
  }

  /** Filters whose predicates agree on every element give the same result. */
  lemma {:induction false} FilterCongruent<T>(s: seq<T>, p: T -> bool, q: T -> bool)
    requires forall x :: x in s ==> p(x) == q(x)
    ensures Filter(s, p) == Filter(s, q)
    decreases |s|
  {
    if |s| > 0 {
      assert s[0] in s;
      forall x | x in s[1..] ensures p(x) == q(x) {
        assert x in s;
      }
      FilterCongruent(s[1..], p, q);
    }
  }

  /** Filtering distributes over appending one element. */
  lemma {:induction false} FilterAppend<T>(s: seq<T>, x: T, p: T -> bool)
    ensures Filter(s + [x], p) == Filter(s, p) + (if p(x) then [x] else [])
    decreases |s|
  {
    if |s| == 0 {
      assert [x][1..] == [];
    } else {
      assert (s + [x])[0] == s[0];
      assert (s + [x])[1..] == s[1..] + [x];
      FilterAppend(s[1..], x, p);
    }
  }
}

=== FILE: chat_dialog.dfy ===
/** The chat dialog controller: the draft, the typing debounce timer, the
    send and close handlers, and what the dialog shows (typing indicator,
    read receipts, whether the send button is enabled). Timers are an
    integer clock in milliseconds: a pending timeout fires as soon as an
    input arrives at or after its deadline. */
module ChatDialog {
  import opened Base
  import opened Text
  import opened ChatRows
  import MessageStore
  import MessageFeed
  import TypingState

  /** Inactivity after the last keystroke before typing is cleared. */
  const TypingTimeoutMs: Millis := 2000

  /** The `typingTimeout` handle: none pending, or a callback due at `deadline`. */
  datatype Timer = Idle | Armed(deadline: Millis)

  /** A call the dialog makes into the messaging hook. */
  datatype Effect = SendEffect(content: string) | TypingEffect(isTyping: bool, at: Millis)

  /** Dialog state: the draft in the input box and the pending timeout. */
  datatype Dialog = Dialog(draft: string, timer: Timer)

  /** What happens to the dialog, each at a point in time: a change of the
      input box, a submit, the dialog closing, or just time passing. */
  datatype Input = Type(text: string, at: Millis) | Submit(at: Millis) | Close(at: Millis) | Wait(at: Millis)

  /** The send button is disabled exactly when the draft is blank. */
  function SendDisabled(draft: string): (b: bool)
    ensures b <==> IsBlank(draft)
  {
    Trim(draft) == []
  }

  /** `handleSend`: a blank draft does nothing. Otherwise the untrimmed draft
      goes to `sendMessage`, typing is set false and the draft is emptied; the
      pending timeout is not cancelled. */
  function HandleSend(d: Dialog, now: Millis): (r: (Dialog, seq<Effect>))
    ensures IsBlank(d.draft) ==> r == (d, [])
    ensures !IsBlank(d.draft) ==> r.0 == Dialog([], d.timer)
    ensures !IsBlank(d.draft) ==> r.1 == [SendEffect(d.draft), TypingEffect(false, now)]
  {
    if Trim(d.draft) == [] then (d, [])
    else (Dialog([], d.timer), [SendEffect(d.draft), TypingEffect(false, now)])
  }

  /** The pending timeout's callback, if it is due by `now`: typing false,
      stamped with the deadline it was due at. */
  function Fire(t: Timer, now: Millis): (r: (Timer, seq<Effect>))
    ensures r.1 == Due(t, now)
    ensures r.0 == (if r.1 == [] then t else Idle)
  {
    (if Due(t, now) == [] then t else Idle, Due(t, now))
  }

  /** One input. A timeout due by then fires first: it makes the calls `Due`
      lists and leaves no timeout pending. A keystroke then stores the text,
      sets typing true and re-arms the timeout 2000 ms ahead (cancelling any
      pending one). A submit of a non-blank draft sends it as typed, sets
      typing false and empties the draft; a blank one does nothing more.
      Closing with a chat id clears typing; waiting does nothing more. */
  function Step(d: Dialog, input: Input, hasChat: bool): (r: (Dialog, seq<Effect>))
    ensures input.Type? ==>
      r == (Dialog(input.text, Armed(input.at + TypingTimeoutMs)), Due(d.timer, input.at) + [TypingEffect(true, input.at)])
    ensures !input.Type? ==> r.0.timer == (if Due(d.timer, input.at) == [] then d.timer else Idle)
    ensures input.Submit? && IsBlank(d.draft) ==> r.0.draft == d.draft && r.1 == Due(d.timer, input.at)
    ensures input.Submit? && !IsBlank(d.draft) ==>
      r.0.draft == [] && r.1 == Due(d.timer, input.at) + [SendEffect(d.draft), TypingEffect(false, input.at)]
    ensures input.Close? ==>
      r.0.draft == d.draft && r.1 == Due(d.timer, input.at) + (if hasChat then [TypingEffect(false, input.at)] else [])
    ensures input.Wait? ==> r.0.draft == d.draft && r.1 == Due(d.timer, input.at)
  {
    var (timer, fired) := Fire(d.timer, input.at);
    assert fired == Due(d.timer, input.at);
    var d1 := d.(timer := timer);
    match input
    case Type(text, at) =>
      (Dialog(text, Armed(at + TypingTimeoutMs)), fired + [TypingEffect(true, at)])
    case Submit(at) =>
      var (d2, sent) := HandleSend(d1, at);
      assert d1.draft == d.draft;
      (d2, fired + sent)
    case Close(at) =>
      (d1, fired + (if hasChat then [TypingEffect(false, at)] else []))
    case Wait(at) =>
      (d1, fired)
  }

  /** A run of inputs, oldest first: final state and every call made. */
  function Run(d: Dialog, inputs: seq<Input>, hasChat: bool): (Dialog, seq<Effect>)
    decreases |inputs|
  {
    if |inputs| == 0 then (d, [])
    else
      var (d1, e1) := Step(d, inputs[0], hasChat);
      var (d2, e2) := Run(d1, inputs[1..], hasChat);
      (d2, e1 + e2)
  }

  /** The calls a due timer contributes before an input at `now`. */
  function Due(t: Timer, now: Millis): seq<Effect>
  {
    if t.Armed? && t.deadline <= now then [TypingEffect(false, t.deadline)] else []
  }

  /** Reference behaviour of the debounce for keystrokes at times `ts`,
      observed until `until`: each keystroke sets typing true, and typing
      false follows 2000 ms later exactly when no keystroke (and for the last
      one, the end of observation) comes sooner. */
  function DebounceSignals(ts: seq<Millis>, until: Millis): seq<Effect>
    decreases |ts|
  {
    if |ts| == 0 then []
    else
      var next := if |ts| > 1 then ts[1] else until;
      [TypingEffect(true, ts[0])] +
      (if ts[0] + TypingTimeoutMs <= next then [TypingEffect(false, ts[0] + TypingTimeoutMs)] else []) +
      DebounceSignals(ts[1..], until)
  }

  /** The times of a run of inputs. */
  function Times(inputs: seq<Input>): (ts: seq<Millis>)
    ensures |ts| == |inputs|
    ensures forall i :: 0 <= i < |inputs| ==> ts[i] == inputs[i].at
  {
    seq(|inputs|, i requires 0 <= i < |inputs| => inputs[i].at)
  }

  /** A run is its first step followed by the run of the rest. */
  lemma RunCons(d: Dialog, inputs: seq<Input>, hasChat: bool)
    requires |inputs| > 0
    ensures Run(d, inputs, hasChat).1 ==
      Step(d, inputs[0], hasChat).1 + Run(Step(d, inputs[0], hasChat).0, inputs[1..], hasChat).1
  {
  }

  /** After a first keystroke, a run is what was due, typing true, and the
      run of the rest from the re-armed timer. */
  lemma KeystrokeThenRest(d: Dialog, inputs: seq<Input>, until: Millis, hasChat: bool)
    requires |inputs| > 0 && inputs[0].Type?
    ensures var d1 := Dialog(inputs[0].text, Armed(inputs[0].at + TypingTimeoutMs));
      Run(d, inputs + [Wait(until)], hasChat).1 ==
        Due(d.timer, inputs[0].at) + [TypingEffect(true, inputs[0].at)] +
        Run(d1, inputs[1..] + [Wait(until)], hasChat).1
  {
    var all := inputs + [Wait(until)];
    RunCons(d, all, hasChat);
    assert all[0] == inputs[0];
    assert all[1..] == inputs[1..] + [Wait(until)];
  }

  /** The reference behaviour, one keystroke unfolded: typing true, then
      what the re-armed timer contributes before the next keystroke (or the
      end of observation), then the rest. */
  lemma SignalsThenRest(inputs: seq<Input>, until: Millis)
    requires |inputs| > 0
    ensures var next := if |inputs| > 1 then inputs[1].at else until;
      DebounceSignals(Times(inputs), until) ==
        [TypingEffect(true, inputs[0].at)] + Due(Armed(inputs[0].at + TypingTimeoutMs), next) +
        DebounceSignals(Times(inputs[1..]), until)
  {
    assert Times(inputs)[1..] == Times(inputs[1..]);
  }

  /** The controller implements the debounce: a run of keystrokes followed
      by waiting until `until` makes exactly the calls `DebounceSignals`
      describes, after whatever the initially pending timeout contributes. */
  lemma {:induction false} DebounceMatchesReference(d: Dialog, inputs: seq<Input>, until: Millis, hasChat: bool)
    requires forall i :: 0 <= i < |inputs| ==> inputs[i].Type?
    ensures Run(d, inputs + [Wait(until)], hasChat).1 ==
      Due(d.timer, if |inputs| > 0 then inputs[0].at else until) + DebounceSignals(Times(inputs), until)
    decreases |inputs|
  {
    if |inputs| == 0 {
      assert inputs + [Wait(until)] == [Wait(until)];
      RunCons(d, [Wait(until)], hasChat);
      assert [Wait(until)][1..] == [];
    } else {
      var t0 := inputs[0].at;
      var d1 := Dialog(inputs[0].text, Armed(t0 + TypingTimeoutMs));
      var next := if |inputs| > 1 then inputs[1].at else until;
      assert |inputs| > 1 ==> inputs[1..][0] == inputs[1];
      KeystrokeThenRest(d, inputs, until, hasChat);
      DebounceMatchesReference(d1, inputs[1..], until, hasChat);
      var rest := DebounceSignals(Times(inputs[1..]), until);
      assert Run(d1, inputs[1..] + [Wait(until)], hasChat).1 == Due(d1.timer, next) + rest;
      SignalsThenRest(inputs, until);
      var due := Due(d.timer, t0);
      var on := [TypingEffect(true, t0)];
      assert due + on + (Due(d1.timer, next) + rest) == due + (on + Due(d1.timer, next) + rest);
    }
  }

  /** Keystroke `i` is followed by at least 2000 ms without another keystroke
      (for the last one: before the end of observation). */
  predicate QuietAfter(ts: seq<Millis>, i: int, until: Millis)
  {
    0 <= i < |ts| && ts[i] + TypingTimeoutMs <= (if i + 1 < |ts| then ts[i + 1] else until)
  }

  /** Typing false is only ever emitted 2000 ms after a keystroke that no
      other keystroke followed within 2000 ms: fast typing never flickers the
      indicator off. */
  lemma {:induction false} FalseOnlyAfterQuietPeriod(ts: seq<Millis>, until: Millis)
    ensures forall e :: e in DebounceSignals(ts, until) && e.TypingEffect? && !e.isTyping ==>
      exists i :: QuietAfter(ts, i, until) && e.at == ts[i] + TypingTimeoutMs
    decreases |ts|
  {
    if |ts| > 0 {
      FalseOnlyAfterQuietPeriod(ts[1..], until);
      var rest := DebounceSignals(ts[1..], until);
      var next := if |ts| > 1 then ts[1] else until;
      var mid := if ts[0] + TypingTimeoutMs <= next then [TypingEffect(false, ts[0] + TypingTimeoutMs)] else [];
      assert DebounceSignals(ts, until) == [TypingEffect(true, ts[0])] + mid + rest;
      forall e | e in DebounceSignals(ts, until) && e.TypingEffect? && !e.isTyping
        ensures exists i :: QuietAfter(ts, i, until) && e.at == ts[i] + TypingTimeoutMs
      {
        if e in rest {
          var j :| QuietAfter(ts[1..], j, until) && e.at == ts[1..][j] + TypingTimeoutMs;
          assert ts[j + 1] == ts[1..][j];
          assert j + 2 < |ts| ==> ts[j + 2] == ts[1..][j + 1];
          assert QuietAfter(ts, j + 1, until);
        } else {
          assert e in mid;
          assert QuietAfter(ts, 0, until);
        }
      }
    }
  }

  /** Once typing stops for 2000 ms, typing false is the last call. */
  lemma {:induction false} QuietPeriodEndsTyping(ts: seq<Millis>, until: Millis)
    requires |ts| > 0
    requires ts[|ts| - 1] + TypingTimeoutMs <= until
    ensures var s := DebounceSignals(ts, until);
      |s| > 0 && s[|s| - 1] == TypingEffect(false, ts[|ts| - 1] + TypingTimeoutMs)
    decreases |ts|
  {
    if |ts| > 1 {
      QuietPeriodEndsTyping(ts[1..], until);
      assert ts[1..][|ts[1..]| - 1] == ts[|ts| - 1];
    }
  }

  /** The only message `handleSend` passes on is the draft as typed. */
  lemma SendEffectCarriesDraft(d: Dialog, now: Millis)
    ensures forall e :: e in HandleSend(d, now).1 && e.SendEffect? ==> e.content == d.draft
  {
    if !IsBlank(d.draft) {
      assert HandleSend(d, now).1 == [SendEffect(d.draft), TypingEffect(false, now)];
    }
  }

  /** A non-blank send reaches the store as one insert of the trimmed draft,
      given a chat and a signed-in user; the button state agrees with the guard. */
  lemma SendStoresTrimmedDraft(d: Dialog, now: Millis, chatId: Option<Id>, user: Option<Id>)
    ensures SendDisabled(d.draft) <==> HandleSend(d, now).1 == []
    ensures forall e :: e in HandleSend(d, now).1 && e.SendEffect? && Present(chatId) && user.Some? ==>
      MessageStore.SendMessage(chatId, user, e.content) ==
        Some(MessageStore.MessageInsert(chatId.value, user.value, Trim(d.draft)))
  {
    SendEffectCarriesDraft(d, now);
    if !IsBlank(d.draft) && Present(chatId) && user.Some? {
      var sent := MessageStore.SendMessage(chatId, user, d.draft);
      assert sent == Some(MessageStore.MessageInsert(chatId.value, user.value, Trim(d.draft))) by {
        assert sent.Some? && sent.value.content == Trim(d.draft);
      }
    }
  }

  /** The typing indicator is shown when some user in `typingUsers` is typing. */
  function IndicatorShown(typingUsers: TypingState.TypingMap): (b: bool)
    ensures b <==> exists u :: u in typingUsers && typingUsers[u]
  {
    true in typingUsers.Values
  }

  /** A peer's typing row turns the indicator on; when the only typing peer's
      row is deleted it goes off. */
  lemma IndicatorFollowsPeers(m: TypingState.TypingMap, me: Id, row: TypingRow)
    requires row.userId != "" && row.userId != me
    ensures row.isTyping ==>
      IndicatorShown(TypingState.OnTypingEvent(m, TypingState.TypingInserted(Some(row)), Some(me)))
    ensures (forall u :: u in m && m[u] ==> u == row.userId) ==>
      !IndicatorShown(TypingState.OnTypingEvent(m, TypingState.TypingDeleted(Some(row)), Some(me)))
  {
    var ins := TypingState.OnTypingEvent(m, TypingState.TypingInserted(Some(row)), Some(me));
    assert TypingState.TypingInserted(Some(row)).Names(row.userId);
    if row.isTyping {
      assert row.userId in ins && ins[row.userId];
    }
    var del := TypingState.OnTypingEvent(m, TypingState.TypingDeleted(Some(row)), Some(me));
    assert TypingState.TypingDeleted(Some(row)).Names(row.userId);
  }

  /** The receipt next to a message: none, one tick (sent) or two (read). */
  datatype Receipt = NoReceipt | SingleCheck | DoubleCheck

  /** Receipts appear only on the viewer's own messages: two ticks once the
      message is read, one before. */
  function ReceiptFor(msg: Message, me: Id): (r: Receipt)
    ensures r != NoReceipt <==> msg.senderId == me
    ensures r == DoubleCheck <==> msg.senderId == me && msg.isRead
  {
    if msg.senderId != me then NoReceipt
    else if msg.isRead then DoubleCheck
    else SingleCheck
  }

  /** A sent message shows one tick to its sender; once the recipient marks it
      read and the resulting UPDATE reaches the sender's list, it shows two. */
  lemma ReceiptTurnsDoubleAfterRead(
    table: seq<Message>, ins: MessageStore.MessageInsert, id: Id, now: Millis,
    feed: seq<Message>, reader: Id, later: Millis)
    ensures var t1 := MessageStore.InsertRow(table, ins, id, now);
      ReceiptFor(t1[|table|], ins.senderId) == SingleCheck
    ensures var t1 := MessageStore.InsertRow(table, ins, id, now);
      var t2 := MessageStore.MarkRead(t1, Some(reader), id, later);
      var f := MessageFeed.OnUpdate(feed, t2[|table|]);
      forall i :: 0 <= i < |feed| && feed[i].id == id ==> ReceiptFor(f[i], ins.senderId) == DoubleCheck
  {
  }
}

=== FILE: chat_directory.dfy ===
/** `createOrGetChat` over the `chats` table: find the chat of this kind about
    this reference between the signed-in user and the counterpart, in either
    role, or else create one with the signed-in user as creator. */
module ChatDirectory {
  import opened Base
  import opened ChatRows

  /** Which backend call, if any, fails. */
  datatype Fault = NoFault | LookupFault | InsertFault

  /** The chat is between `a` and `b`, whichever of them created it. */
  predicate Between(c: Chat, a: Id, b: Id)
  {
    (c.creatorId == a && c.participantId == b) || (c.creatorId == b && c.participantId == a)
  }

  /** The lookup's filter: same kind, same reference, same unordered pair. */
  predicate Matches(c: Chat, kind: ChatKind, referenceId: Id, a: Id, b: Id)
  {
    c.kind == kind && c.referenceId == referenceId && Between(c, a, b)
  }

  /** The rows the lookup selects, in table order. */
  function Matching(chats: seq<Chat>, kind: ChatKind, referenceId: Id, a: Id, b: Id): seq<Chat>
  {
    Filter(chats, (c: Chat) => Matches(c, kind, referenceId, a, b))
  }

  /** The lookup does not depend on which side asks. */
  lemma MatchingSymmetric(chats: seq<Chat>, kind: ChatKind, referenceId: Id, a: Id, b: Id)
    ensures Matching(chats, kind, referenceId, a, b) == Matching(chats, kind, referenceId, b, a)
  {
    FilterCongruent(chats,
      (c: Chat) => Matches(c, kind, referenceId, a, b),
      (c: Chat) => Matches(c, kind, referenceId, b, a));
  }

  /** `createOrGetChat(kind, referenceId, counterpart)`. No user: `null`, no
      write. A failed lookup: `null`. `.single()` succeeds only on exactly one
      matching row, whose id is returned; on zero rows, and equally on several
      (the backend reports both with the code the source treats as "no rows"),
      a chat is created with the user as creator and the counterpart as
      participant, and its id returned, unless the insert fails (`null`).
      The new chat takes the backend-assigned `freshId`. */
  function CreateOrGetChat(
    chats: seq<Chat>, kind: ChatKind, referenceId: Id, user: Option<Id>, counterpart: Id,
    fault: Fault, freshId: Id): (r: (Option<Id>, seq<Chat>))
    ensures user.None? ==> r == (None, chats)
    ensures user.Some? && fault == LookupFault ==> r == (None, chats)
    ensures user.Some? && fault != LookupFault && |Matching(chats, kind, referenceId, user.value, counterpart)| == 1 ==>
      r == (Some(Matching(chats, kind, referenceId, user.value, counterpart)[0].id), chats)
    ensures user.Some? && fault == NoFault && |Matching(chats, kind, referenceId, user.value, counterpart)| != 1 ==>
      r == (Some(freshId), chats + [Chat(freshId, kind, referenceId, user.value, counterpart)])
    ensures user.Some? && fault == InsertFault && |Matching(chats, kind, referenceId, user.value, counterpart)| != 1 ==>
      r == (None, chats)
    ensures r.0.Some? ==> exists c :: c in r.1 && c.id == r.0.value && Matches(c, kind, referenceId, user.value, counterpart)
  {
    if user.None? || fault == LookupFault then (None, chats)
    else
      var found := Matching(chats, kind, referenceId, user.value, counterpart);
      if |found| == 1 then
        assert found[0] in found;
        (Some(found[0].id), chats)
      else if fault == InsertFault then (None, chats)
      else
        var created := Chat(freshId, kind, referenceId, user.value, counterpart);
        assert created in chats + [created];
        (Some(freshId), chats + [created])
  }

  /** Two chats are the same conversation: same kind, reference and pair. */
  predicate SameConversation(c: Chat, d: Chat)
  {
    Matches(d, c.kind, c.referenceId, c.creatorId, c.participantId)
  }

  /** The directory invariant: no conversation is stored twice. */
  predicate UniqueConversations(chats: seq<Chat>)
  {
    forall i, j :: 0 <= i < j < |chats| ==> !SameConversation(chats[i], chats[j])
  }

  /** Under the invariant the lookup selects at most one row. */
  lemma {:induction false} AtMostOneMatch(chats: seq<Chat>, kind: ChatKind, referenceId: Id, a: Id, b: Id)
    requires UniqueConversations(chats)
    ensures |Matching(chats, kind, referenceId, a, b)| <= 1
    decreases |chats|
  {
    if |chats| > 0 {
      var tail := chats[1..];
      assert UniqueConversations(tail) by {
        forall i, j | 0 <= i < j < |tail| ensures !SameConversation(tail[i], tail[j]) {
          assert tail[i] == chats[i + 1] && tail[j] == chats[j + 1];
        }
      }
      AtMostOneMatch(tail, kind, referenceId, a, b);
      if Matches(chats[0], kind, referenceId, a, b) {
        forall x | x in tail ensures !Matches(x, kind, referenceId, a, b) {
          var j :| 0 <= j < |tail| && tail[j] == x;
          assert !SameConversation(chats[0], chats[j + 1]);
        }
        FilterDropsAll(tail, (c: Chat) => Matches(c, kind, referenceId, a, b));
      }
    }
  }

  /** Sequential `createOrGetChat` calls never store a conversation twice. */
  lemma CreateKeepsUnique(
    chats: seq<Chat>, kind: ChatKind, referenceId: Id, user: Option<Id>, counterpart: Id,
    fault: Fault, freshId: Id)
    requires UniqueConversations(chats)
    ensures UniqueConversations(CreateOrGetChat(chats, kind, referenceId, user, counterpart, fault, freshId).1)
  {
    var r := CreateOrGetChat(chats, kind, referenceId, user, counterpart, fault, freshId);
    if user.Some? && r.1 != chats {
      AtMostOneMatch(chats, kind, referenceId, user.value, counterpart);
      var created := Chat(freshId, kind, referenceId, user.value, counterpart);
      forall i | 0 <= i < |chats| ensures !SameConversation(chats[i], created) {
        assert chats[i] in chats;
      }
    }
  }

  /** After a successful call, exactly one stored chat matches, and it carries
      the returned id. */
  lemma {:induction false} CreateLeavesOneMatch(
    chats: seq<Chat>, kind: ChatKind, referenceId: Id, me: Id, counterpart: Id,
    fault: Fault, freshId: Id)
    requires UniqueConversations(chats)
    requires CreateOrGetChat(chats, kind, referenceId, Some(me), counterpart, fault, freshId).0.Some?
    ensures var r := CreateOrGetChat(chats, kind, referenceId, Some(me), counterpart, fault, freshId);
      |Matching(r.1, kind, referenceId, me, counterpart)| == 1 &&
      Matching(r.1, kind, referenceId, me, counterpart)[0].id == r.0.value
  {
    var r := CreateOrGetChat(chats, kind, referenceId, Some(me), counterpart, fault, freshId);
    var p := (c: Chat) => Matches(c, kind, referenceId, me, counterpart);
    AtMostOneMatch(chats, kind, referenceId, me, counterpart);
    if |Matching(chats, kind, referenceId, me, counterpart)| != 1 {
      var created := Chat(freshId, kind, referenceId, me, counterpart);
      FilterAppend(chats, created, p);
      assert Matching(chats, kind, referenceId, me, counterpart) == [];
    }
  }

  /** Get-or-create is idempotent regardless of who initiates: once the user
      has a chat with the counterpart about a reference, the counterpart asking
      for a chat with the user about it gets the same id and nothing is created. */
  lemma SwappedRolesSameChat(
    chats: seq<Chat>, kind: ChatKind, referenceId: Id, a: Id, b: Id,
    fault1: Fault, fresh1: Id, fault2: Fault, fresh2: Id)
    requires UniqueConversations(chats)
    requires CreateOrGetChat(chats, kind, referenceId, Some(a), b, fault1, fresh1).0.Some?
    requires fault2 != LookupFault
    ensures var (id1, after1) := CreateOrGetChat(chats, kind, referenceId, Some(a), b, fault1, fresh1);
      CreateOrGetChat(after1, kind, referenceId, Some(b), a, fault2, fresh2) == (id1, after1)
  {
    var (id1, after1) := CreateOrGetChat(chats, kind, referenceId, Some(a), b, fault1, fresh1);
    CreateLeavesOneMatch(chats, kind, referenceId, a, b, fault1, fresh1);
    MatchingSymmetric(after1, kind, referenceId, a, b);
  }
}

=== FILE: chat_rows.dfy ===
/** Rows of the three chat tables (`chats`, `messages`, `typing_indicators`),
    with the fields the hooks read and write. Identifiers are the text the
    backend hands out; timestamps are integer milliseconds. */
module ChatRows {
  import opened Base

  type Id = string
  type Millis = int

  /** What a chat is about: the `type` column. */
  datatype ChatKind = CommunityPost | MarketplaceItem

  /** A row of `chats`: a conversation between its creator and one participant
      about one referenced post or item. */
  datatype Chat = Chat(id: Id, kind: ChatKind, referenceId: Id, creatorId: Id, participantId: Id)

  /** A row of `messages`. `readAt` is `null` until the recipient reads it. */
  datatype Message = Message(
    id: Id,
    chatId: Id,
    senderId: Id,
    content: string,
    isRead: bool,
    readAt: Option<Millis>,
    createdAt: Millis)

  /** A row of `typing_indicators`. */
  datatype TypingRow = TypingRow(chatId: Id, userId: Id, isTyping: bool, updatedAt: Millis)

  /** JavaScript truthiness of an optional identifier: present and not `""`. */
  predicate Present(o: Option<Id>)
  {
    o.Some? && o.value != ""
  }

  /** The message ids, in list order. */
  function Ids(ms: seq<Message>): (r: seq<Id>)
    ensures |r| == |ms|
    ensures forall i :: 0 <= i < |ms| ==> r[i] == ms[i].id
  {
    seq(|ms|, i requires 0 <= i < |ms| => ms[i].id)
  }
}

=== FILE: college_verification.dfy ===
/** The college verification flow: enter details, receive a code, enter the
    code. Each accepted request is simulated by a timeout; while it is in
    flight every button is disabled but the text inputs stay editable, and
    the request completes when its timer fires. */
module CollegeVerification {
  import opened Base
  import opened Text

  datatype Step = Details | Otp | Verified

  /** The simulated request in flight (`isLoading`). Sending a code
      remembers the address it was sent to, which its toast names. */
  datatype Request = NoRequest | SendingOtp(sentTo: string) | VerifyingOtp

  datatype Verification = Verification(
    step: Step, collegeId: string, collegeEmail: string, otp: string, request: Request)

  const Initial := Verification(Details, "", "", "", NoRequest)

  /** Length of the verification code, in UTF-16 code units as JavaScript's
      `length` counts them. */
  const OtpLength := 6

  /** The toast each handler raises. */
  datatype Notice = MissingInformation | InvalidEmail | OtpSent(to: string) | InvalidOtp | VerificationSuccessful

  /** What the user can do, plus the pending timeout firing. Which controls
      exist depends on the step. */
  datatype Action =
    | EditCollegeId(text: string)
    | EditCollegeEmail(text: string)
    | EditOtp(text: string)
    | SendCode
    | VerifyCode
    | BackToDetails
    | TimerFires

  /** `isLoading`: a request is in flight. */
  predicate Loading(v: Verification)
  {
    v.request != NoRequest
  }

  /** The email check: it must contain "@" and ".edu" somewhere, not
      necessarily as its domain suffix. */
  predicate LooksLikeCollegeEmail(email: string)
  {
    Contains(email, "@") && Contains(email, ".edu")
  }

  /** The checks `handleSendOTP` applies to the details. */
  predicate DetailsAccepted(collegeId: string, collegeEmail: string)
  {
    !IsBlank(collegeId) && !IsBlank(collegeEmail) && LooksLikeCollegeEmail(collegeEmail)
  }

  /** `handleSendOTP`: a blank ID or blank email is refused, then an email
      lacking "@" or ".edu" is refused; otherwise the request for the
      current address starts. Nothing else changes. */
  function SendOtp(v: Verification): (r: (Verification, Option<Notice>))
    ensures IsBlank(v.collegeId) || IsBlank(v.collegeEmail) ==> r == (v, Some(MissingInformation))
    ensures !IsBlank(v.collegeId) && !IsBlank(v.collegeEmail) && !LooksLikeCollegeEmail(v.collegeEmail) ==>
      r == (v, Some(InvalidEmail))
    ensures DetailsAccepted(v.collegeId, v.collegeEmail) ==>
      r == (v.(request := SendingOtp(v.collegeEmail)), None)
  {
    if Trim(v.collegeId) == [] || Trim(v.collegeEmail) == [] then (v, Some(MissingInformation))
    else if !Contains(v.collegeEmail, "@") || !Contains(v.collegeEmail, ".edu") then (v, Some(InvalidEmail))
    else (v.(request := SendingOtp(v.collegeEmail)), None)
  }

  /** `handleVerifyOTP`: a code of any other length than six is refused;
      otherwise the request starts. The code's value is never compared with
      anything. */
  function VerifyOtp(v: Verification): (r: (Verification, Option<Notice>))
    ensures Utf16Length(v.otp) != OtpLength ==> r == (v, Some(InvalidOtp))
    ensures Utf16Length(v.otp) == OtpLength ==> r == (v.(request := VerifyingOtp), None)
  {
    if Utf16Length(v.otp) != OtpLength then (v, Some(InvalidOtp))
    else (v.(request := VerifyingOtp), None)
  }

  /** The pending timeout's callback: the step advances and the toast shows,
      whatever the inputs hold by then. A code request lands on the code
      step and its toast names the address it was sent to; a verify request
      lands on `verified`. Nothing is in flight afterwards and the inputs are
      as they were. */
  function Complete(v: Verification): (r: (Verification, Option<Notice>))
    ensures r.0.request == NoRequest
    ensures r.0.collegeId == v.collegeId && r.0.collegeEmail == v.collegeEmail && r.0.otp == v.otp
    ensures v.request == NoRequest ==> r == (v, None)
    ensures v.request.SendingOtp? ==> r.0.step == Otp && r.1 == Some(OtpSent(v.request.sentTo))
    ensures v.request == VerifyingOtp ==> r.0.step == Verified && r.1 == Some(VerificationSuccessful)
  {
    match v.request
    case NoRequest => (v, None)
    case SendingOtp(to) => (v.(step := Otp, request := NoRequest), Some(OtpSent(to)))
    case VerifyingOtp => (v.(step := Verified, request := NoRequest), Some(VerificationSuccessful))
  }

  /** One action. On the details step: the two text boxes and "send". On the
      code step: the code box (at most six code units), "verify" (disabled
      unless the code has six), "back" and "resend". Buttons are disabled
      while a request is in flight; text boxes are not. The verified screen
      has no controls. Anything not on screen does nothing. */
  function Next(v: Verification, a: Action): (r: (Verification, Option<Notice>))
    ensures a.EditCollegeId? || a.EditCollegeEmail? || a.EditOtp? ==>
      r.0.step == v.step && r.0.request == v.request && r.1 == None
    ensures Loading(v) && !a.TimerFires? ==> r.0.step == v.step && r.0.request == v.request && r.1 == None
    ensures a.TimerFires? ==> r.0.collegeId == v.collegeId && r.0.collegeEmail == v.collegeEmail && r.0.otp == v.otp
    ensures a.TimerFires? && !Loading(v) ==> r == (v, None)
    ensures a.TimerFires? && Loading(v) ==> !Loading(r.0) && r.1.Some?
    ensures v.step == Verified && !a.TimerFires? ==> r == (v, None)
    ensures v.step == Details && a.EditCollegeId? ==> r == (v.(collegeId := a.text), None)
    ensures v.step == Details && a.EditCollegeEmail? ==> r == (v.(collegeEmail := a.text), None)
    ensures v.step == Otp && a.EditOtp? ==>
      r == (if Utf16Length(a.text) <= OtpLength then v.(otp := a.text) else v, None)
    ensures (v.step == Details || v.step == Otp) && !Loading(v) && a.SendCode? ==> r == SendOtp(v)
    ensures v.step == Otp && !Loading(v) && a.VerifyCode? ==>
      r == (if Utf16Length(v.otp) == OtpLength then VerifyOtp(v) else (v, None))
    ensures v.step == Otp && !Loading(v) && a.BackToDetails? ==> r == (v.(step := Details), None)
    ensures v.step == Otp && (a.EditCollegeId? || a.EditCollegeEmail?) ==> r == (v, None)
    ensures v.step == Details && (a.EditOtp? || a.VerifyCode? || a.BackToDetails?) ==> r == (v, None)
    ensures a.TimerFires? ==> r == Complete(v)
  {
    if a.TimerFires? then Complete(v)
    else
      match (v.step, a)
      case (Details, EditCollegeId(t)) => (v.(collegeId := t), None)
      case (Details, EditCollegeEmail(t)) => (v.(collegeEmail := t), None)
      case (Details, SendCode) => if Loading(v) then (v, None) else SendOtp(v)
      case (Otp, EditOtp(t)) => if Utf16Length(t) <= OtpLength then (v.(otp := t), None) else (v, None)
      case (Otp, VerifyCode) =>
        if Loading(v) || Utf16Length(v.otp) != OtpLength then (v, None) else VerifyOtp(v)
      case (Otp, BackToDetails) => if Loading(v) then (v, None) else (v.(step := Details), None)
      case (Otp, SendCode) => if Loading(v) then (v, None) else SendOtp(v)
      case _ => (v, None)
  }

  function Run(v: Verification, actions: seq<Action>): Verification
    decreases |actions|
  {
    if |actions| == 0 then v else Run(Next(v, actions[0]).0, actions[1..])
  }

  /** The legal step transitions. */
  predicate Legal(from: Step, to: Step)
  {
    from == to || (from == Details && to == Otp) || (from == Otp && (to == Details || to == Verified))
  }

  /** Every action makes a legal transition. A code request starts only when
      the details pass the checks at that moment, and a verify request only
      from the code step with a six-unit code. The code step is entered from
      the details only when a code request completes, and `verified` only
      when a verify request does. Consistency is kept. */
  lemma NextIsLegal(v: Verification, a: Action)
    requires Consistent(v)
    ensures Consistent(Next(v, a).0)
    ensures Legal(v.step, Next(v, a).0.step)
    ensures Next(v, a).0.request.SendingOtp? && !v.request.SendingOtp? ==>
      DetailsAccepted(v.collegeId, v.collegeEmail) && Next(v, a).0.request.sentTo == v.collegeEmail
    ensures Next(v, a).0.request.VerifyingOtp? && !v.request.VerifyingOtp? ==>
      v.step == Otp && Utf16Length(v.otp) == OtpLength
    ensures v.step == Details && Next(v, a).0.step == Otp ==> a.TimerFires? && v.request.SendingOtp?
    ensures v.step != Verified && Next(v, a).0.step == Verified ==> a.TimerFires? && v.request == VerifyingOtp
  {
    match a
    case TimerFires =>
    case SendCode =>
      if !Loading(v) && v.step != Verified {
        assert Next(v, a) == SendOtp(v);
      }
    case VerifyCode =>
    case BackToDetails =>
    case EditCollegeId(_) =>
    case EditCollegeEmail(_) =>
    case EditOtp(_) =>
  }

  /** What holds of every reachable state: a code request in flight was
      made for an accepted address and is never pending on the verified
      screen, a verify request is pending only on the code step, and the
      verified screen has nothing in flight. */
  predicate Consistent(v: Verification)
  {
    && (v.request.SendingOtp? ==> LooksLikeCollegeEmail(v.request.sentTo) && !IsBlank(v.request.sentTo))
    && (v.request.SendingOtp? ==> v.step != Verified)
    && (v.request == VerifyingOtp ==> v.step == Otp)
    && (v.step == Verified ==> v.request == NoRequest)
  }

  /** Every state reachable from a consistent one is consistent, and
      `verified` is never left. */
  lemma {:induction false} RunStaysConsistent(v: Verification, actions: seq<Action>)
    requires Consistent(v)
    ensures Consistent(Run(v, actions))
    ensures v.step == Verified ==> Run(v, actions) == v
    decreases |actions|
  {
    if |actions| > 0 {
      var w := Next(v, actions[0]).0;
      assert Consistent(w) by {
        NextIsLegal(v, actions[0]);
      }
      RunStaysConsistent(w, actions[1..]);
    }
  }

  /** The "OTP Sent" toast always names an address that passed the checks,
      though the email box may have been edited since. */
  lemma OtpSentToCheckedAddress(v: Verification, a: Action)
    requires Consistent(v)
    ensures var n := Next(v, a).1;
      n.Some? && n.value.OtpSent? ==> !IsBlank(n.value.to) && LooksLikeCollegeEmail(n.value.to)
  {
  }

  /** A run of three actions is the three steps one after the other. */
  lemma RunThree(v: Verification, a: Action, b: Action, c: Action)
    ensures Run(v, [a, b, c]) == Next(Next(Next(v, a).0, b).0, c).0
  {
    var v1 := Next(v, a).0;
    var v2 := Next(v1, b).0;
    assert [a, b, c][1..] == [b, c];
    assert [b, c][1..] == [c];
    assert [c][1..] == [];
    assert Run(v, [a, b, c]) == Run(v1, [b, c]);
    assert Run(v1, [b, c]) == Run(v2, [c]);
    assert Run(v2, [c]) == Run(Next(v2, c).0, []);
  }

  /** A run of two actions is the two steps one after the other. */
  lemma RunTwo(v: Verification, a: Action, b: Action)
    ensures Run(v, [a, b]) == Next(Next(v, a).0, b).0
  {
    var v1 := Next(v, a).0;
    assert [a, b][1..] == [b];
    assert [b][1..] == [];
    assert Run(v, [a, b]) == Run(v1, [b]);
    assert Run(v1, [b]) == Run(Next(v1, b).0, []);
  }

  /** "Back" returns to the details step with the ID, email and typed code
      kept, so sending again from there requests a code for the same
      details; once it arrives the flow is back where it was. */
  lemma BackReturnsToDetails(v: Verification)
    requires v.step == Otp && v.request == NoRequest
    ensures Run(v, [BackToDetails]) == v.(step := Details)
    ensures Run(v, [BackToDetails, SendCode]) == SendOtp(v.(step := Details)).0
    ensures DetailsAccepted(v.collegeId, v.collegeEmail) ==>
      Run(v, [BackToDetails, SendCode, TimerFires]) == v
  {
    var d := v.(step := Details);
    assert Next(v, BackToDetails).0 == d;
    assert [BackToDetails][1..] == [];
    assert Run(v, [BackToDetails]) == Run(d, []);
    RunTwo(v, BackToDetails, SendCode);
    assert Next(d, SendCode) == SendOtp(d);
    if DetailsAccepted(v.collegeId, v.collegeEmail) {
      RunThree(v, BackToDetails, SendCode, TimerFires);
      var w := d.(request := SendingOtp(v.collegeEmail));
      assert SendOtp(d).0 == w;
      assert Next(w, TimerFires).0 == v;
    }
  }

  /** "Send" from the idle code step with details that pass starts a code
      request for the current address and changes nothing else. */
  lemma SendFromIdleCodeStep(v: Verification)
    requires v.step == Otp && v.request == NoRequest
    requires DetailsAccepted(v.collegeId, v.collegeEmail)
    ensures Next(v, SendCode) == (v.(request := SendingOtp(v.collegeEmail)), None)
  {
    assert Next(v, SendCode) == SendOtp(v);
  }

  /** A code requested from the code step arrives there, toasting the
      address it was sent to. */
  lemma CodeArrives(w: Verification)
    requires w.step == Otp && w.request.SendingOtp?
    ensures Next(w, TimerFires) == (w.(request := NoRequest), Some(OtpSent(w.request.sentTo)))
  {
    assert Next(w, TimerFires) == Complete(w);
  }

  /** Resend with details that pass: a new code request, which on arrival
      leaves the flow as it was with a fresh toast. */
  lemma ResendAccepted(v: Verification)
    requires v.step == Otp && v.request == NoRequest
    requires DetailsAccepted(v.collegeId, v.collegeEmail)
    ensures Next(v, SendCode) == (v.(request := SendingOtp(v.collegeEmail)), None)
    ensures Next(Next(v, SendCode).0, TimerFires) == (v, Some(OtpSent(v.collegeEmail)))
  {
    SendFromIdleCodeStep(v);
    CodeArrives(v.(request := SendingOtp(v.collegeEmail)));
  }

  /** Resend with details that no longer pass: refused with an error toast. */
  lemma ResendRefused(v: Verification)
    requires v.step == Otp && v.request == NoRequest
    requires !DetailsAccepted(v.collegeId, v.collegeEmail)
    ensures Next(v, SendCode).0 == v && Next(v, SendCode).1.Some? && !Next(v, SendCode).1.value.OtpSent?
  {
    assert Next(v, SendCode) == SendOtp(v);
  }

  /** "Resend" on the code step requests a new code for the current details
      and, once it arrives, leaves the flow as it was with a fresh toast. If
      the details were edited in flight so that they no longer pass, resend
      is refused with the matching toast and nothing changes. */
  lemma ResendStaysOnCodeStep(v: Verification)
    requires v.step == Otp && v.request == NoRequest
    ensures DetailsAccepted(v.collegeId, v.collegeEmail) ==>
      Next(v, SendCode) == (v.(request := SendingOtp(v.collegeEmail)), None)
    ensures DetailsAccepted(v.collegeId, v.collegeEmail) ==>
      Next(Next(v, SendCode).0, TimerFires) == (v, Some(OtpSent(v.collegeEmail)))
    ensures !DetailsAccepted(v.collegeId, v.collegeEmail) ==>
      Next(v, SendCode).0 == v && Next(v, SendCode).1.Some? && !Next(v, SendCode).1.value.OtpSent?
  {
    if DetailsAccepted(v.collegeId, v.collegeEmail) {
      ResendAccepted(v);
    } else {
      ResendRefused(v);
    }
  }

  /** Any code of six UTF-16 code units verifies, astral characters
      counting two each: the code's value is not checked. */
  lemma AnySixCharacterCodeVerifies(v: Verification, code: string)
    requires v.step == Otp && v.request == NoRequest && Utf16Length(code) == OtpLength
    ensures Run(v, [EditOtp(code), VerifyCode, TimerFires]).step == Verified
  {
    RunThree(v, EditOtp(code), VerifyCode, TimerFires);
    var v1 := Next(v, EditOtp(code)).0;
    assert v1 == v.(otp := code);
    var v2 := Next(v1, VerifyCode).0;
    assert v2 == v1.(request := VerifyingOtp);
  }

  /** The checks apply to the values at click time: once the code request
      has started, the email can be changed to anything, blank included, and
      the flow still reaches the code step with that email. */
  lemma EmailEditedInFlight(v: Verification, email: string)
    requires v.step == Details && v.request == NoRequest && DetailsAccepted(v.collegeId, v.collegeEmail)
    ensures Run(v, [SendCode, EditCollegeEmail(email), TimerFires]) == v.(step := Otp, collegeEmail := email)
  {
    RunThree(v, SendCode, EditCollegeEmail(email), TimerFires);
    var v1 := v.(request := SendingOtp(v.collegeEmail));
    assert Next(v, SendCode).0 == v1;
    var v2 := v1.(collegeEmail := email);
    assert Next(v1, EditCollegeEmail(email)).0 == v2;
  }

  /** Likewise, once a six-unit code is being verified it can be replaced by
      any code the box accepts, a shorter one included, and the flow still
      reaches `verified` with that code. */
  lemma CodeEditedInFlight(v: Verification, code: string)
    requires v.step == Otp && v.request == NoRequest && Utf16Length(v.otp) == OtpLength
    requires Utf16Length(code) <= OtpLength
    ensures Run(v, [VerifyCode, EditOtp(code), TimerFires]) == v.(step := Verified, otp := code)
  {
    RunThree(v, VerifyCode, EditOtp(code), TimerFires);
    var v1 := v.(request := VerifyingOtp);
    assert Next(v, VerifyCode).0 == v1;
    var v2 := v1.(otp := code);
    assert Next(v1, EditOtp(code)).0 == v2;
  }
}

=== FILE: community.dfy ===
/** The community view: activities filtered by a search box and by an
    activity-type selector whose `all` entry matches everything. */
module Community {
  import opened Base
  import opened Text

  datatype Activity = Activity(id: int, title: string, kind: string, description: string)

  /** The selector entry that matches every type. */
  const AllTypes := "all"

  /** The search: the query, case-insensitively, is a substring of the title
      or of the description. */
  predicate SearchMatches(a: Activity, query: string)
  {
    MatchesQuery(a.title, query) || MatchesQuery(a.description, query)
  }

  /** The type filter: `all`, or exactly the selected type. */
  predicate TypeMatches(a: Activity, selected: string)
  {
    selected == AllTypes || a.kind == selected
  }

  /** `filteredActivities`: the activities passing both the search and the
      type filter, in their original order. */
  function FilteredActivities(activities: seq<Activity>, query: string, selected: string): (r: seq<Activity>)
    ensures forall a :: a in r ==> a in activities && SearchMatches(a, query) && TypeMatches(a, selected)
    ensures forall a :: a in activities && SearchMatches(a, query) && TypeMatches(a, selected) ==> a in r
    ensures IsSubsequence(r, activities)
  {
    Filter(activities, (a: Activity) => SearchMatches(a, query) && TypeMatches(a, selected))
  }

  /** `all` with an empty search shows every activity, in order. */
  lemma AllWithEmptySearchKeepsEverything(activities: seq<Activity>)
    ensures FilteredActivities(activities, "", AllTypes) == activities
  {
    forall a | a in activities ensures SearchMatches(a, "") && TypeMatches(a, AllTypes) {
      ContainsEmpty(Lower(a.title));
    }
    FilterKeepsAll(activities, (a: Activity) => SearchMatches(a, "") && TypeMatches(a, AllTypes));
  }

  /** With a specific type selected every result has that type. */
  lemma SpecificTypeOnly(activities: seq<Activity>, query: string, selected: string)
    requires selected != AllTypes
    ensures forall a :: a in FilteredActivities(activities, query, selected) ==> a.kind == selected
  {
  }

  /** Narrowing the type from `all` to one type keeps a subset of the results. */
  lemma TypeFilterNarrows(activities: seq<Activity>, query: string, selected: string)
    ensures forall a :: a in FilteredActivities(activities, query, selected) ==>
      a in FilteredActivities(activities, query, AllTypes)
  {
  }
}

=== FILE: create_post_form.dfy ===
/** The "create activity" form: title, description, activity type and a
    duplicate-free list of interest tags. */
module CreatePostForm {
  import opened Base
  import opened ListEditor

  datatype PostForm = PostForm(title: string, description: string, activityType: string, tags: Editor)

  const EmptyPostForm := PostForm("", "", "", Editor("", []))

  /** What the form hands to `onSubmit`. */
  datatype PostData = PostData(title: string, description: string, activityType: string, interestTags: seq<string>)

  datatype PostAction =
    | EditTitle(text: string)
    | EditDescription(text: string)
    | EditActivityType(text: string)
    | EditTagInput(text: string)
    | AddTag
    | RemoveTag(tag: string)
    | SubmitPost

  /** `addTag`: a non-empty tag not yet present is appended and the tag box
      cleared; otherwise nothing changes. Other fields never change. */
  function AddTag(f: PostForm): (r: PostForm)
    ensures r.title == f.title && r.description == f.description && r.activityType == f.activityType
    ensures f.tags.input == [] || f.tags.input in f.tags.items ==> r == f
    ensures f.tags.input != [] && f.tags.input !in f.tags.items ==>
      r.tags.items == f.tags.items + [f.tags.input] && r.tags.input == []
  {
    f.(tags := Add(f.tags))
  }

  /** `removeTag(t)`: `t` is gone, the other tags keep their order. */
  function RemoveTag(f: PostForm, t: string): (r: PostForm)
    ensures r.title == f.title && r.description == f.description && r.activityType == f.activityType
    ensures r.tags.input == f.tags.input
    ensures t !in r.tags.items
    ensures forall x :: x in r.tags.items <==> x in f.tags.items && x != t
    ensures IsSubsequence(r.tags.items, f.tags.items)
  {
    f.(tags := Remove(f.tags, t))
  }

  /** `handleSubmit`: with an empty title or activity type nothing is emitted
      and nothing changes; otherwise the current values are emitted and every
      field is reset to empty. Only emptiness is checked: a title of spaces
      passes. */
  function Submit(f: PostForm): (r: (PostForm, Option<PostData>))
    ensures f.title == [] || f.activityType == [] ==> r == (f, None)
    ensures f.title != [] && f.activityType != [] ==>
      r.0 == EmptyPostForm &&
      r.1 == Some(PostData(f.title, f.description, f.activityType, f.tags.items))
  {
    if f.title == [] || f.activityType == [] then (f, None)
    else (EmptyPostForm, Some(PostData(f.title, f.description, f.activityType, f.tags.items)))
  }

  /** A successful submit resets the form, so submitting again at once emits
      nothing: a post cannot be sent twice by a double submit. */
  lemma SubmitResets(f: PostForm)
    requires Submit(f).1.Some?
    ensures Submit(Submit(f).0) == (EmptyPostForm, None)
    ensures Submit(f).1.value.title == f.title && Submit(f).1.value.interestTags == f.tags.items
  {
  }

  function Step(f: PostForm, a: PostAction): (PostForm, Option<PostData>)
  {
    match a
    case EditTitle(t) => (f.(title := t), None)
    case EditDescription(t) => (f.(description := t), None)
    case EditActivityType(t) => (f.(activityType := t), None)
    case EditTagInput(t) => (f.(tags := f.tags.(input := t)), None)
    case AddTag => (AddTag(f), None)
    case RemoveTag(t) => (RemoveTag(f, t), None)
    case SubmitPost => Submit(f)
  }

  /** A session of actions: the final form and everything submitted, in order. */
  function Run(f: PostForm, actions: seq<PostAction>): (PostForm, seq<PostData>)
    decreases |actions|
  {
    if |actions| == 0 then (f, [])
    else
      var (f1, out) := Step(f, actions[0]);
      var (f2, rest) := Run(f1, actions[1..]);
      (f2, (if out.Some? then [out.value] else []) + rest)
  }

  /** Whatever the user does, the tag list never holds a duplicate, and every
      submitted post has a title, an activity type and distinct tags. */
  lemma {:induction false} TagsStayDistinct(f: PostForm, actions: seq<PostAction>)
    requires NoDuplicates(f.tags.items)
    ensures NoDuplicates(Run(f, actions).0.tags.items)
    ensures forall p :: p in Run(f, actions).1 ==>
      p.title != [] && p.activityType != [] && NoDuplicates(p.interestTags)
    decreases |actions|
  {
    if |actions| > 0 {
      var (f1, out) := Step(f, actions[0]);
      assert NoDuplicates(f1.tags.items) by {
        if actions[0].SubmitPost? && f.title != [] && f.activityType != [] {
          assert f1 == EmptyPostForm;
        }
      }
      TagsStayDistinct(f1, actions[1..]);
    }
  }
}

=== FILE: list_editor.dfy ===
/** The "add if non-empty and absent / remove by value" list editor that both
    forms use: interest tags in the post form, image URLs in the item form. */
module ListEditor {
  import opened Base

  /** The text box and the list it feeds. */
  datatype Editor = Editor(input: string, items: seq<string>)

  /** Add: a non-empty input not yet listed goes to the end and the box is
      cleared; an empty or already listed input changes nothing. */
  function Add(e: Editor): (r: Editor)
    ensures e.input == [] || e.input in e.items ==> r == e
    ensures e.input != [] && e.input !in e.items ==> r.input == [] && r.items == e.items + [e.input]
    ensures NoDuplicates(e.items) ==> NoDuplicates(r.items)
  {
    if e.input != [] && e.input !in e.items then
      var r := Editor([], e.items + [e.input]);
      assert NoDuplicates(e.items) ==> NoDuplicates(r.items) by {
        if NoDuplicates(e.items) {
          forall i, j | 0 <= i < j < |r.items| ensures r.items[i] != r.items[j] {
            if j == |e.items| {
              assert r.items[i] == e.items[i];
            } else {
              assert r.items[i] == e.items[i] && r.items[j] == e.items[j];
            }
          }
        }
      }
      r
    else e
  }

  /** Remove by value: `v` is gone, every other entry stays, in its original
      relative order; the text box is untouched. */
  function Remove(e: Editor, v: string): (r: Editor)
    ensures r.input == e.input
    ensures v !in r.items
    ensures forall x :: x in e.items && x != v ==> x in r.items
    ensures forall x :: x in r.items ==> x in e.items
    ensures IsSubsequence(r.items, e.items)
    ensures NoDuplicates(e.items) ==> NoDuplicates(r.items)
  {
    Editor(e.input, RemoveAll(e.items, v))
  }

  /** Removing what was just added restores the list. */
  lemma RemoveUndoesAdd(e: Editor)
    requires e.input != [] && e.input !in e.items
    ensures Remove(Add(e), e.input).items == e.items
  {
    RemoveAfterAppend(e.items, e.input);
  }

  /** Adding is idempotent: a second click with the same text changes nothing. */
  lemma AddTwice(e: Editor)
    ensures Add(Add(e)) == Add(e)
  {
  }
}

=== FILE: marketplace.dfy ===
/** The marketplace view: the search filter over listings, starting a chat
    with a seller, the seller name shown, and which buttons a listing shows. */
module Marketplace {
  import opened Base
  import opened Text
  import opened ChatRows
  import ChatDirectory

  /** A listing, with the fields the view uses; the description is nullable. */
  datatype Item = Item(id: Id, title: string, description: Option<string>, sellerId: Id)

  /** The signed-in user's profile. */
  datatype Profile = Profile(firstName: string, lastName: string)

  /** The chat dialog currently open. */
  datatype ActiveChat = ActiveChat(chatId: Id, title: string)

  const ChatTitlePrefix := "Chat about: "
  const UnknownSeller := "Unknown Seller"

  /** The search: the query, case-insensitively, is a substring of the title
      or of the description when there is a non-empty one. */
  predicate ItemMatches(item: Item, query: string)
  {
    MatchesQuery(item.title, query) ||
    (item.description.Some? && item.description.value != "" && MatchesQuery(item.description.value, query))
  }

  /** `filteredItems`: exactly the matching listings, in their original order. */
  function FilteredItems(items: seq<Item>, query: string): (r: seq<Item>)
    ensures forall x :: x in r ==> x in items && ItemMatches(x, query)
    ensures forall x :: x in items && ItemMatches(x, query) ==> x in r
    ensures IsSubsequence(r, items)
  {
    Filter(items, (it: Item) => ItemMatches(it, query))
  }

  /** An empty search shows every listing, in order. */
  lemma EmptySearchKeepsAll(items: seq<Item>)
    ensures FilteredItems(items, "") == items
  {
    forall it | it in items ensures ItemMatches(it, "") {
      ContainsEmpty(Lower(it.title));
    }
    FilterKeepsAll(items, (it: Item) => ItemMatches(it, ""));
  }

  /** The query's letter case does not matter. */
  lemma QueryCaseIgnored(items: seq<Item>, query: string)
    ensures FilteredItems(items, Lower(query)) == FilteredItems(items, query)
  {
    LowerIdempotent(query);
    FilterCongruent(items,
      (it: Item) => ItemMatches(it, Lower(query)),
      (it: Item) => ItemMatches(it, query));
  }

  /** Typing more narrows the results: every listing matching a longer query
      matches its prefix. */
  lemma LongerQueryNarrows(items: seq<Item>, query: string, more: string)
    ensures forall x :: x in FilteredItems(items, query + more) ==> x in FilteredItems(items, query)
  {
    LowerAppend(query, more);
    forall x | x in FilteredItems(items, query + more) ensures ItemMatches(x, query) {
      if MatchesQuery(x.title, query + more) {
        ContainsPrefixOf(Lower(x.title), Lower(query), Lower(more));
      } else {
        ContainsPrefixOf(Lower(x.description.value), Lower(query), Lower(more));
      }
    }
  }

  /** "Message Seller" is offered when someone is signed in and is not the seller. */
  predicate ShowMessageSeller(user: Option<Id>, item: Item)
  {
    user.Some? && user.value != item.sellerId
  }

  /** The delete button appears on the signed-in user's own listings. */
  predicate ShowDelete(user: Option<Id>, item: Item)
  {
    user.Some? && item.sellerId == user.value
  }

  /** The two buttons never appear together, a signed-in user always sees
      exactly one of them, and deleting is offered exactly on the user's own
      listings. */
  lemma ButtonsExclusive(user: Option<Id>, item: Item)
    ensures !(ShowMessageSeller(user, item) && ShowDelete(user, item))
    ensures user.Some? ==> ShowMessageSeller(user, item) || ShowDelete(user, item)
    ensures ShowDelete(user, item) <==> user == Some(item.sellerId)
  {
  }

  /** `handleStartChat`: nothing without a user or on one's own listing.
      Otherwise get or create the chat about this item with the seller; a
      returned id opens the dialog titled "Chat about: " and the item's
      title, and no id leaves the open dialog as it was. */
  function StartChat(
    user: Option<Id>, item: Item, chats: seq<Chat>, fault: ChatDirectory.Fault, freshId: Id,
    active: Option<ActiveChat>): (r: (Option<ActiveChat>, seq<Chat>))
    ensures user.None? || item.sellerId == user.value ==> r == (active, chats)
    ensures r.0 != active ==>
      && r.0.Some?
      && r.0.value.title == ChatTitlePrefix + item.title
      && user.Some?
      && exists c :: c in r.1 && c.id == r.0.value.chatId &&
           ChatDirectory.Matches(c, MarketplaceItem, item.id, user.value, item.sellerId)
    ensures user.Some? && item.sellerId != user.value ==>
      var (id, after) := ChatDirectory.CreateOrGetChat(chats, MarketplaceItem, item.id, user, item.sellerId, fault, freshId);
      && r.1 == after
      && (Present(id) ==> r.0 == Some(ActiveChat(id.value, ChatTitlePrefix + item.title)))
      && (!Present(id) ==> r.0 == active)
  {
    if user.None? || item.sellerId == user.value then (active, chats)
    else
      var (id, after) := ChatDirectory.CreateOrGetChat(chats, MarketplaceItem, item.id, user, item.sellerId, fault, freshId);
      if Present(id) then (Some(ActiveChat(id.value, ChatTitlePrefix + item.title)), after)
      else (active, after)
  }

  /** A chat can only be started from a listing that shows "Message Seller". */
  lemma StartChatNeedsMessageButton(
    user: Option<Id>, item: Item, chats: seq<Chat>, fault: ChatDirectory.Fault, freshId: Id,
    active: Option<ActiveChat>)
    requires !ShowMessageSeller(user, item)
    ensures StartChat(user, item, chats, fault, freshId, active) == (active, chats)
  {
  }

  /** `getSellerName`: the profile's "first last" for the user's own listing
      once the profile is loaded, "Unknown Seller" otherwise. */
  function SellerName(sellerId: Id, user: Option<Id>, profile: Option<Profile>): (r: string)
    ensures user.Some? && sellerId == user.value && profile.Some? ==>
      r == profile.value.firstName + " " + profile.value.lastName
    ensures !(user.Some? && sellerId == user.value && profile.Some?) ==> r == UnknownSeller
  {
    if user.Some? && sellerId == user.value && profile.Some? then
      profile.value.firstName + " " + profile.value.lastName
    else UnknownSeller
  }

  /** Other sellers are never named: what a listing that is not one's own
      shows does not depend on any profile. */
  lemma OtherSellersUnnamed(sellerId: Id, user: Option<Id>, p1: Option<Profile>, p2: Option<Profile>)
    requires user.None? || sellerId != user.value
    ensures SellerName(sellerId, user, p1) == SellerName(sellerId, user, p2) == UnknownSeller
  {
  }
}

=== FILE: message_feed.dfy ===
/** The client-side message list that both chat hooks keep in sync with the
    `messages` table: the history load replaces the list, a realtime INSERT
    appends, a realtime UPDATE replaces by id. The load and the subscription
    start together, so their results can arrive in either order. `useMessaging` additionally marks an incoming message read when
    someone else sent it; `useChat` does not. */
module MessageFeed {
  import opened Base
  import opened ChatRows
  import MessageStore

  /** What reaches the list: the history fetch resolving with its rows
      (`setMessages(data || [])`), or a realtime change on `messages` for the
      subscribed chat. */
  datatype MessageEvent = Loaded(rows: seq<Message>) | Inserted(row: Message) | Updated(row: Message)

  /** INSERT: the new row goes to the end; nothing before it moves or changes,
      and a row whose id is already listed is appended again. */
  function OnInsert(feed: seq<Message>, row: Message): (r: seq<Message>)
    ensures |r| == |feed| + 1 && r[..|feed|] == feed && r[|feed|] == row
  {
    feed + [row]
  }

  /** UPDATE: every listed message carrying the row's id is replaced by the
      row; the list keeps its length and every other message. */
  function OnUpdate(feed: seq<Message>, row: Message): (r: seq<Message>)
    ensures |r| == |feed|
    ensures forall i :: 0 <= i < |feed| && feed[i].id == row.id ==> r[i] == row
    ensures forall i :: 0 <= i < |feed| && feed[i].id != row.id ==> r[i] == feed[i]
    decreases |feed|
  {
    if |feed| == 0 then []
    else [if feed[0].id == row.id then row else feed[0]] + OnUpdate(feed[1..], row)
  }

  function OnEvent(feed: seq<Message>, ev: MessageEvent): seq<Message>
  {
    match ev
    case Loaded(rows) => rows
    case Inserted(row) => OnInsert(feed, row)
    case Updated(row) => OnUpdate(feed, row)
  }

  /** The list after a run of realtime events, oldest event first. */
  function ApplyAll(feed: seq<Message>, evs: seq<MessageEvent>): seq<Message>
    decreases |evs|
  {
    if |evs| == 0 then feed else ApplyAll(OnEvent(feed, evs[0]), evs[1..])
  }

  /** No history load among the events. */
  predicate NoLoads(evs: seq<MessageEvent>)
  {
    forall i :: 0 <= i < |evs| ==> !evs[i].Loaded?
  }

  /** The ids the INSERT events carry, in delivery order. */
  function InsertedIds(evs: seq<MessageEvent>): seq<Id>
    decreases |evs|
  {
    if |evs| == 0 then []
    else (if evs[0].Inserted? then [evs[0].row.id] else []) + InsertedIds(evs[1..])
  }

  /** An update changes no id and no position. */
  lemma UpdateKeepsIds(feed: seq<Message>, row: Message)
    ensures Ids(OnUpdate(feed, row)) == Ids(feed)
  {
    var r := OnUpdate(feed, row);
    assert forall i :: 0 <= i < |feed| ==> Ids(r)[i] == Ids(feed)[i];
  }

  /** Message order is delivery order: after a run of realtime events with
      no load among them the list holds the ids it started with followed by
      the inserted ids in the order their INSERT events arrived; updates move
      nothing. (`LoadDiscardsEarlier` covers runs with a load.) */
  lemma {:induction false} ApplyAllIds(feed: seq<Message>, evs: seq<MessageEvent>)
    ensures NoLoads(evs) ==> Ids(ApplyAll(feed, evs)) == Ids(feed) + InsertedIds(evs)
    decreases |evs|
  {
    if |evs| > 0 && NoLoads(evs) {
      var next := OnEvent(feed, evs[0]);
      assert NoLoads(evs[1..]) by {
        forall i | 0 <= i < |evs[1..]| ensures !evs[1..][i].Loaded? {
          assert evs[1..][i] == evs[i + 1];
        }
      }
      ApplyAllIds(next, evs[1..]);
      match evs[0]
      case Inserted(row) =>
        assert Ids(next) == Ids(feed) + [row.id];
      case Updated(row) =>
        UpdateKeepsIds(feed, row);
    }
  }

  /** A run is its first part followed by the rest. */
  lemma {:induction false} ApplyAllAppend(feed: seq<Message>, a: seq<MessageEvent>, b: seq<MessageEvent>)
    ensures ApplyAll(feed, a + b) == ApplyAll(ApplyAll(feed, a), b)
    decreases |a|
  {
    if |a| == 0 {
      assert a + b == b;
    } else {
      assert (a + b)[0] == a[0];
      assert (a + b)[1..] == a[1..] + b;
      ApplyAllAppend(OnEvent(feed, a[0]), a[1..], b);
    }
  }

  /** The history load replaces the list: whatever arrived before it, the
      list afterwards is the loaded rows followed by what comes after. */
  lemma LoadDiscardsEarlier(feed: seq<Message>, before: seq<MessageEvent>, rows: seq<Message>, after: seq<MessageEvent>)
    ensures ApplyAll(feed, before + [Loaded(rows)] + after) == ApplyAll(rows, after)
  {
    ApplyAllAppend(feed, before + [Loaded(rows)], after);
    ApplyAllAppend(feed, before, [Loaded(rows)]);
    var mid := ApplyAll(feed, before);
    assert [Loaded(rows)][1..] == [];
    assert ApplyAll(mid, [Loaded(rows)]) == ApplyAll(rows, []);
  }

  /** A message inserted while the history fetch is in flight, and missing
      from the snapshot the fetch read, is lost if its INSERT event arrives
      before the fetch resolves: the table holds it but the list does not. */
  lemma InsertDuringFetchIsLost(
    table: seq<Message>, chat: Id, ins: MessageStore.MessageInsert, id: Id, now: Millis, feed: seq<Message>)
    requires ins.chatId == chat
    requires id !in Ids(table)
    ensures var after := MessageStore.InsertRow(table, ins, id, now);
      var row := after[|table|];
      && row in MessageStore.History(after, chat)
      && row !in ApplyAll(feed, [Inserted(row), Loaded(MessageStore.History(table, chat))])
  {
    var after := MessageStore.InsertRow(table, ins, id, now);
    var row := after[|table|];
    var snapshot := MessageStore.History(table, chat);
    assert row in after;
    LoadDiscardsEarlier(feed, [Inserted(row)], snapshot, []);
    assert [Inserted(row)] + [Loaded(snapshot)] + [] == [Inserted(row), Loaded(snapshot)];
    assert ApplyAll(snapshot, []) == snapshot;
    assert row !in table by {
      forall k | 0 <= k < |table| ensures table[k] != row {
        assert Ids(table)[k] == table[k].id;
      }
    }
  }

  /** A message already in the snapshot the fetch read, whose INSERT event
      arrives only after the fetch resolved, is listed twice. */
  lemma InsertAfterLoadDuplicates(feed: seq<Message>, rows: seq<Message>, row: Message)
    requires row.id in Ids(rows)
    ensures !NoDuplicates(Ids(ApplyAll(feed, [Loaded(rows), Inserted(row)])))
  {
    var acts := [Loaded(rows), Inserted(row)];
    assert acts[1..] == [Inserted(row)];
    assert [Inserted(row)][1..] == [];
    assert ApplyAll(feed, acts) == ApplyAll(rows, [Inserted(row)]);
    assert ApplyAll(rows, [Inserted(row)]) == ApplyAll(OnInsert(rows, row), []);
    InsertDoesNotDeduplicate(rows, row);
  }

  /** Delivering the same UPDATE twice is the same as delivering it once. */
  lemma {:induction false} UpdateIdempotent(feed: seq<Message>, row: Message)
    ensures OnUpdate(OnUpdate(feed, row), row) == OnUpdate(feed, row)
    decreases |feed|
  {
    if |feed| > 0 {
      UpdateIdempotent(feed[1..], row);
    }
  }

  /** An UPDATE for a message the list does not hold changes nothing. */
  lemma {:induction false} UpdateOfAbsentIsNoOp(feed: seq<Message>, row: Message)
    requires row.id !in Ids(feed)
    ensures OnUpdate(feed, row) == feed
    decreases |feed|
  {
    if |feed| > 0 {
      assert Ids(feed)[0] == feed[0].id;
      assert row.id !in Ids(feed[1..]) by {
        forall k | 0 <= k < |feed| - 1 ensures Ids(feed[1..])[k] != row.id {
          assert Ids(feed[1..])[k] == Ids(feed)[k + 1];
        }
      }
      UpdateOfAbsentIsNoOp(feed[1..], row);
      assert feed == [feed[0]] + feed[1..];
    }
  }

  /** The INSERT handler does not de-duplicate: re-delivering a row whose id
      is already listed makes that id appear twice. */
  lemma InsertDoesNotDeduplicate(feed: seq<Message>, row: Message)
    requires row.id in Ids(feed)
    ensures !NoDuplicates(Ids(OnInsert(feed, row)))
  {
    var r := OnInsert(feed, row);
    var k :| 0 <= k < |feed| && Ids(feed)[k] == row.id;
    assert Ids(r)[k] == row.id && Ids(r)[|feed|] == row.id;
  }

  /** The message `useMessaging` asks to mark read when an INSERT arrives: the
      new row, unless its sender is the signed-in user. */
  function AutoReadTarget(row: Message, user: Option<Id>): (r: Option<Id>)
    ensures r.Some? ==> r.value == row.id
    ensures r.None? <==> user.Some? && row.senderId == user.value
  {
    if user.None? || row.senderId != user.value then Some(row.id) else None
  }

  /** `useMessaging`'s INSERT handler: the list grows exactly as in `useChat`,
      and the backing table has the new message marked read when, and only
      when, another user sent it and someone is signed in. */
  function ReceiveInsert(feed: seq<Message>, table: seq<Message>, row: Message, user: Option<Id>, now: Millis)
    : (r: (seq<Message>, seq<Message>))
    ensures r.0 == OnInsert(feed, row)
    ensures user.None? || row.senderId == user.value ==> r.1 == table
    ensures |r.1| == |table|
    ensures forall i :: 0 <= i < |table| && table[i].id != row.id ==> r.1[i] == table[i]
    ensures user.Some? && row.senderId != user.value ==>
      forall i :: 0 <= i < |table| && table[i].id == row.id ==> r.1[i] == table[i].(isRead := true, readAt := Some(now))
  {
    var table' :=
      match AutoReadTarget(row, user)
      case Some(id) => MessageStore.MarkRead(table, user, id, now)
      case None => table;
    (OnInsert(feed, row), table')
  }
}

=== FILE: message_store.dfy ===
/** The `messages` table as the hooks use it: the guarded, trimmed insert of
    `sendMessage`, the read mark of `markMessageAsRead` / `markAsRead`, and the
    per-chat history `fetchMessages` loads. */
module MessageStore {
  import opened Base
  import opened Text
  import opened ChatRows

  /** The payload `sendMessage` hands to the insert. */
  datatype MessageInsert = MessageInsert(chatId: Id, senderId: Id, content: string)

  /** `sendMessage(content)`: nothing without a chat id, without a signed-in
      user, or when the content is blank; otherwise one insert for this chat
      and user whose content is the trimmed text, never blank itself. */
  function SendMessage(chatId: Option<Id>, user: Option<Id>, content: string): (r: Option<MessageInsert>)
    ensures r.None? <==> !Present(chatId) || user.None? || IsBlank(content)
    ensures r.Some? ==> r.value.chatId == chatId.value && r.value.senderId == user.value
    ensures r.Some? ==> r.value.content == Trim(content)
    ensures r.Some? ==> !IsBlank(r.value.content) && Trim(r.value.content) == r.value.content
  {
    var text := Trim(content);
    if !Present(chatId) || user.None? || text == [] then None
    else
      TrimSettled(content);
      Some(MessageInsert(chatId.value, user.value, text))
  }

  /** The row the backend stores for an insert: it assigns the id and the
      creation time, and the message starts unread. */
  function InsertRow(table: seq<Message>, ins: MessageInsert, id: Id, now: Millis): seq<Message>
  {
    table + [Message(id, ins.chatId, ins.senderId, ins.content, false, None, now)]
  }

  /** Messages are kept in creation-time order. */
  predicate InCreationOrder(ms: seq<Message>)
  {
    forall i, j :: 0 <= i < j < |ms| ==> ms[i].createdAt <= ms[j].createdAt
  }

  /** What the backend guarantees of the table: unique ids, creation order. */
  predicate WellFormed(table: seq<Message>)
  {
    NoDuplicates(Ids(table)) && InCreationOrder(table)
  }

  /** The backend hands out a fresh id and a clock that does not run backwards,
      so every insert keeps the table well formed and lands at its end. */
  lemma InsertKeepsWellFormed(table: seq<Message>, ins: MessageInsert, id: Id, now: Millis)
    requires WellFormed(table)
    requires id !in Ids(table)
    requires forall i :: 0 <= i < |table| ==> table[i].createdAt <= now
    ensures WellFormed(InsertRow(table, ins, id, now))
    ensures Ids(InsertRow(table, ins, id, now)) == Ids(table) + [id]
  {
    var r := InsertRow(table, ins, id, now);
    assert forall i :: 0 <= i < |table| ==> Ids(r)[i] == Ids(table)[i];
    assert Ids(r) == Ids(table) + [id];
  }

  /** `markMessageAsRead(id)`: nothing without a signed-in user; otherwise the
      row(s) with that id become read, stamped with the current time, and every
      other row and every other field is left alone. The source does not check
      who the reader is. */
  function MarkRead(table: seq<Message>, user: Option<Id>, id: Id, now: Millis): (r: seq<Message>)
    ensures |r| == |table|
    ensures user.None? ==> r == table
    ensures forall i :: 0 <= i < |table| && table[i].id != id ==> r[i] == table[i]
    ensures user.Some? ==> forall i :: 0 <= i < |table| && table[i].id == id ==>
      r[i].isRead && r[i].readAt == Some(now) &&
      r[i] == table[i].(isRead := r[i].isRead, readAt := r[i].readAt)
  {
    if user.None? then table
    else
      seq(|table|, i requires 0 <= i < |table| =>
        if table[i].id == id then table[i].(isRead := true, readAt := Some(now)) else table[i])
  }

  /** The read flag never goes back: marking keeps every read message read,
      and marking the same message twice leaves it read. */
  lemma MarkReadMonotone(table: seq<Message>, user: Option<Id>, id: Id, id2: Id, t1: Millis, t2: Millis)
    ensures forall i :: 0 <= i < |table| && table[i].isRead ==> MarkRead(table, user, id, t1)[i].isRead
    ensures user.Some? ==> forall i :: 0 <= i < |table| && table[i].id == id ==>
      MarkRead(MarkRead(table, user, id, t1), user, id2, t2)[i].isRead
  {
  }

  /** Marking a message read keeps the table well formed: ids and creation
      times are untouched. */
  lemma MarkReadKeepsWellFormed(table: seq<Message>, user: Option<Id>, id: Id, now: Millis)
    requires WellFormed(table)
    ensures WellFormed(MarkRead(table, user, id, now))
    ensures Ids(MarkRead(table, user, id, now)) == Ids(table)
  {
    var r := MarkRead(table, user, id, now);
    assert Ids(r) == Ids(table);
  }

  /** `fetchMessages`: the messages of one chat, oldest first. */
  function History(table: seq<Message>, chatId: Id): (r: seq<Message>)
    ensures forall m :: m in r ==> m in table && m.chatId == chatId
    ensures forall m :: m in table && m.chatId == chatId ==> m in r
    ensures IsSubsequence(r, table)
  {
    Filter(table, (m: Message) => m.chatId == chatId)
  }

  /** A subsequence of a list in creation order is in creation order. */
  lemma {:induction false} SubsequenceInOrder(a: seq<Message>, b: seq<Message>)
    requires IsSubsequence(a, b)
    requires InCreationOrder(b)
    ensures InCreationOrder(a)
    ensures |a| > 0 ==> exists k :: 0 <= k < |b| && b[k] == a[0]
    decreases |b|
  {
    if |a| > 0 {
      assert |b| > 0;
      var tail := b[1..];
      assert InCreationOrder(tail) by {
        forall i, j | 0 <= i < j < |tail| ensures tail[i].createdAt <= tail[j].createdAt {
          assert tail[i] == b[i + 1] && tail[j] == b[j + 1];
        }
      }
      if a[0] == b[0] && IsSubsequence(a[1..], tail) {
        SubsequenceInOrder(a[1..], tail);
        forall i, j | 0 <= i < j < |a| ensures a[i].createdAt <= a[j].createdAt {
          if i == 0 {
            assert a[j] == a[1..][j - 1];
            assert a[1..][j - 1] in a[1..];
            MemberOfSubsequence(a[1..], tail, j - 1);
          } else {
            assert a[i] == a[1..][i - 1] && a[j] == a[1..][j - 1];
          }
        }
      } else {
        SubsequenceInOrder(a, tail);
        var k :| 0 <= k < |tail| && tail[k] == a[0];
        assert b[k + 1] == a[0];
      }
    }
  }

  /** Every element of a subsequence of `b[1..]` sits at or after `b[0]`'s creation time. */
  lemma {:induction false} MemberOfSubsequence(a: seq<Message>, tail: seq<Message>, j: int)
    requires IsSubsequence(a, tail)
    requires 0 <= j < |a|
    ensures exists k :: 0 <= k < |tail| && tail[k] == a[j]
    decreases |tail|
  {
    assert |tail| > 0;
    if a[0] == tail[0] && IsSubsequence(a[1..], tail[1..]) {
      if j == 0 {
        assert tail[0] == a[j];
      } else {
        MemberOfSubsequence(a[1..], tail[1..], j - 1);
        var k :| 0 <= k < |tail[1..]| && tail[1..][k] == a[1..][j - 1];
        assert tail[k + 1] == a[j];
      }
    } else {
      MemberOfSubsequence(a, tail[1..], j);
      var k :| 0 <= k < |tail[1..]| && tail[1..][k] == a[j];
      assert tail[k + 1] == a[j];
    }
  }

  /** The history of a chat is oldest first whenever the table is. */
  lemma HistoryInCreationOrder(table: seq<Message>, chatId: Id)
    requires InCreationOrder(table)
    ensures InCreationOrder(History(table, chatId))
  {
    SubsequenceInOrder(History(table, chatId), table);
  }
}

=== FILE: text.dfy ===
/** String rules the components rely on: JavaScript's `String.prototype.trim`,
    `toLowerCase` (ASCII letters only) and `includes`. */
module Text {

  /** The code points `trim` strips: the WhiteSpace and LineTerminator
      productions of ECMAScript. */
  predicate IsWhitespace(c: char)
  {
    var n := c as int;
    n == 0x09 || n == 0x0A || n == 0x0B || n == 0x0C || n == 0x0D || n == 0x20 ||
    n == 0xA0 || n == 0x1680 || (0x2000 <= n <= 0x200A) || n == 0x2028 ||
    n == 0x2029 || n == 0x202F || n == 0x205F || n == 0x3000 || n == 0xFEFF
  }

  /** Every character is whitespace (this includes the empty string). */
  predicate IsBlank(s: string)
  {
    forall i :: 0 <= i < |s| ==> IsWhitespace(s[i])
  }

  /** Leading whitespace removed. */
  function TrimStart(s: string): (r: string)
    ensures |r| <= |s| && r == s[|s| - |r|..]
    ensures IsBlank(s[..|s| - |r|])
    ensures |r| > 0 ==> !IsWhitespace(r[0])
    decreases |s|
  {
    if |s| > 0 && IsWhitespace(s[0]) then TrimStart(s[1..]) else s
  }

  /** Trailing whitespace removed. */
  function TrimEnd(s: string): (r: string)
    ensures |r| <= |s| && r == s[..|r|]
    ensures IsBlank(s[|r|..])
    ensures |r| > 0 ==> !IsWhitespace(r[|r| - 1])
    decreases |s|
  {
    if |s| > 0 && IsWhitespace(s[|s| - 1]) then TrimEnd(s[..|s| - 1]) else s
  }

  /** `r` is `s` with the blank prefix `s[..k]` and a blank suffix cut off. */
  predicate CutBlank(s: string, r: string, k: int)
  {
    && 0 <= k && k + |r| <= |s|
    && (forall i :: 0 <= i < |r| ==> r[i] == s[k + i])
    && (forall i :: 0 <= i < k ==> IsWhitespace(s[i]))
    && (forall i :: k + |r| <= i < |s| ==> IsWhitespace(s[i]))
  }

  /** `s.trim()`: the longest infix of `s` that neither starts nor ends with
      whitespace, obtained by cutting only whitespace off both ends. It is
      empty exactly when `s` is blank, which is the source's `!s.trim()`. */
  function Trim(s: string): (r: string)
    ensures |r| <= |s|
    ensures |r| > 0 ==> !IsWhitespace(r[0]) && !IsWhitespace(r[|r| - 1])
    ensures r == [] <==> IsBlank(s)
    ensures exists k :: CutBlank(s, r, k)
  {
    TrimParts(s);
    TrimBlank(s);
    TrimEnd(TrimStart(s))
  }

  /** Trimming both ends cuts a blank prefix and a blank suffix. */
  lemma TrimParts(s: string)
    ensures CutBlank(s, TrimEnd(TrimStart(s)), |s| - |TrimStart(s)|)
  {
    var t := TrimStart(s);
    InfixOfSuffix(s, t, TrimEnd(t), |s| - |t|);
  }

  /** A prefix `r` of the suffix `t == s[k..]`, with `s[..k]` and `t[|r|..]`
      blank, is `s` with blank ends cut off. */
  lemma InfixOfSuffix(s: string, t: string, r: string, k: int)
    requires 0 <= k <= |s| && t == s[k..] && IsBlank(s[..k])
    requires |r| <= |t| && r == t[..|r|] && IsBlank(t[|r|..])
    ensures CutBlank(s, r, k)
  {
    forall i | 0 <= i < k ensures IsWhitespace(s[i]) {
      assert s[i] == s[..k][i];
    }
    forall i | k + |r| <= i < |s| ensures IsWhitespace(s[i]) {
      assert s[i] == t[|r|..][i - k - |r|];
    }
  }

  /** Trimming both ends leaves nothing exactly when the string is blank. */
  lemma TrimBlank(s: string)
    ensures TrimEnd(TrimStart(s)) == [] <==> IsBlank(s)
  {
    var t := TrimStart(s);
    var r := TrimEnd(t);
    var k := |s| - |t|;
    if r == [] {
      forall i | 0 <= i < |s| ensures IsWhitespace(s[i]) {
        assert s[i] == s[..k][i];
      }
    }
  }

  /** Trimming is idempotent: what `sendMessage` stores trims to itself. */
  lemma TrimIdempotent(s: string)
    ensures Trim(Trim(s)) == Trim(s)
  {
    var r := Trim(s);
    if |r| > 0 {
      assert TrimStart(r) == r;
      assert TrimEnd(r) == r;
    }
  }

  /** Trimming text that is not blank leaves text that is not blank and
      that a second trim does not change. */
  lemma TrimSettled(s: string)
    requires !IsBlank(s)
    ensures !IsBlank(Trim(s)) && Trim(Trim(s)) == Trim(s)
  {
    TrimIdempotent(s);
  }

  /** How many UTF-16 code units a character takes: two for a code point
      outside the Basic Multilingual Plane (a surrogate pair), one otherwise. */
  function Utf16Units(c: char): (u: nat)
    ensures u == 1 <==> c as int < 0x10000
    ensures u == 2 <==> c as int >= 0x10000
  {
    if c as int < 0x10000 then 1 else 2
  }

  /** JavaScript's `s.length`: the number of UTF-16 code units. It equals the
      number of characters exactly when none lies outside the Basic
      Multilingual Plane. */
  function Utf16Length(s: string): (n: nat)
    ensures |s| <= n <= 2 * |s|
    ensures n == |s| <==> forall i :: 0 <= i < |s| ==> s[i] as int < 0x10000
    ensures |s| == 1 ==> n == Utf16Units(s[0])
    decreases |s|
  {
    if |s| == 0 then 0
    else
      var n := Utf16Units(s[0]) + Utf16Length(s[1..]);
      assert (forall i :: 0 <= i < |s| ==> s[i] as int < 0x10000) <==>
             s[0] as int < 0x10000 && (forall i :: 0 <= i < |s[1..]| ==> s[1..][i] as int < 0x10000) by {
        if forall i :: 0 <= i < |s[1..]| ==> s[1..][i] as int < 0x10000 {
          forall i | 1 <= i < |s| ensures s[i] as int < 0x10000 {
            assert s[i] == s[1..][i - 1];
          }
        }
      }
      n
  }

  /** The length of a concatenation is the sum of the lengths; with the
      one-character case this pins `Utf16Length` down completely. */
  lemma {:induction false} Utf16Append(a: string, b: string)
    ensures Utf16Length(a + b) == Utf16Length(a) + Utf16Length(b)
    decreases |a|
  {
    if |a| == 0 {
      assert a + b == b;
    } else {
      assert (a + b)[0] == a[0];
      assert (a + b)[1..] == a[1..] + b;
      Utf16Append(a[1..], b);
    }
  }

  /** ASCII lower-casing of one character. */
  function LowerChar(c: char): char
  {
    if 'A' <= c <= 'Z' then (c as int + 32) as char else c
  }

  /** `s.toLowerCase()` restricted to ASCII letters. */
  function Lower(s: string): (r: string)
    ensures |r| == |s|
    ensures forall i :: 0 <= i < |s| ==> r[i] == LowerChar(s[i])
  {
    seq(|s|, i requires 0 <= i < |s| => LowerChar(s[i]))
  }

  /** `needle` occurs in `hay` starting at position `i`. */
  predicate OccursAt(hay: string, needle: string, i: int)
  {
    0 <= i && i + |needle| <= |hay| && hay[i..i + |needle|] == needle
  }

  /** `hay.includes(needle)`: `needle` is a substring of `hay`. */
  function Contains(hay: string, needle: string): (b: bool)
    ensures b <==> exists i :: OccursAt(hay, needle, i)
    decreases |hay|
  {
    if |needle| > |hay| then
      assert forall i :: !OccursAt(hay, needle, i);
      false
    else if hay[..|needle|] == needle then
      assert OccursAt(hay, needle, 0);
      true
    else
      var b := Contains(hay[1..], needle);
      assert b ==> exists i :: OccursAt(hay, needle, i) by {
        if b {
          var i :| OccursAt(hay[1..], needle, i);
          assert hay[1..][i..i + |needle|] == hay[i + 1..i + 1 + |needle|];
          assert OccursAt(hay, needle, i + 1);
        }
      }
      assert (exists i :: OccursAt(hay, needle, i)) ==> b by {
        if exists i :: OccursAt(hay, needle, i) {
          var i :| OccursAt(hay, needle, i);
          assert i != 0;
          assert hay[1..][i - 1..i - 1 + |needle|] == hay[i..i + |needle|];
          assert OccursAt(hay[1..], needle, i - 1);
        }
      }
      b
  }

  /** Every string contains the empty string: an empty search matches everything. */
  lemma ContainsEmpty(hay: string)
    ensures Contains(hay, "")
  {
    assert OccursAt(hay, "", 0);
  }

  /** The case-insensitive substring test the search boxes use:
      `hay.toLowerCase().includes(query.toLowerCase())`. */
  predicate MatchesQuery(hay: string, query: string)
  {
    Contains(Lower(hay), Lower(query))
  }

  /** Lower-casing twice is lower-casing once. */
  lemma LowerIdempotent(s: string)
    ensures Lower(Lower(s)) == Lower(s)
  {
  }

  /** Lower-casing works character by character, so it distributes over concatenation. */
  lemma LowerAppend(a: string, b: string)
    ensures Lower(a + b) == Lower(a) + Lower(b)
  {
  }

  /** A string containing `n + m` contains `n`. */
  lemma ContainsPrefixOf(hay: string, n: string, m: string)
    requires Contains(hay, n + m)
    ensures Contains(hay, n)
  {
    var i :| OccursAt(hay, n + m, i);
    assert hay[i..i + |n|] == (n + m)[..|n|] == n;
    assert OccursAt(hay, n, i);
  }
}

=== FILE: typing_state.dfy ===
/** Typing state in `useMessaging`: the `typing_indicators` table written by
    `setTyping`, and the `typingUsers` map each client rebuilds from the
    table's realtime INSERT, UPDATE and DELETE events. */
module TypingState {
  import opened Base
  import opened ChatRows

  /** `typingUsers`: user id to "is typing". */
  type TypingMap = map<Id, bool>

  /** `typing_indicators`, keyed by (chat id, user id); the upsert is assumed
      to conflict on that pair. */
  type TypingTable = map<(Id, Id), TypingRow>

  /** A realtime change on `typing_indicators`: INSERT and UPDATE carry the
      new row, DELETE the old one; either may be missing from the payload. */
  datatype TypingEvent =
    | TypingInserted(newRow: Option<TypingRow>)
    | TypingUpdated(newRow: Option<TypingRow>)
    | TypingDeleted(oldRow: Option<TypingRow>)
  {
    function Row(): Option<TypingRow>
    {
      match this
      case TypingInserted(r) => r
      case TypingUpdated(r) => r
      case TypingDeleted(r) => r
    }

    /** The payload names user `u` (a non-empty, hence truthy, id). */
    predicate Names(u: Id)
    {
      Row().Some? && Row().value.userId == u && u != ""
    }
  }

  /** The typing handler: DELETE drops the old row's user; INSERT and UPDATE
      from anyone but the signed-in user record that user's `is_typing`;
      only the key the event names can change. */
  function OnTypingEvent(m: TypingMap, ev: TypingEvent, user: Option<Id>): (r: TypingMap)
    ensures forall u :: !ev.Names(u) ==> (u in r <==> u in m)
    ensures forall u :: !ev.Names(u) && u in r ==> r[u] == m[u]
    ensures forall u :: ev.TypingDeleted? && ev.Names(u) ==> u !in r
    ensures forall u :: !ev.TypingDeleted? && ev.Names(u) && (user.None? || u != user.value) ==>
      u in r && r[u] == ev.Row().value.isTyping
    ensures forall u :: !ev.TypingDeleted? && ev.Names(u) && user == Some(u) ==> r == m
  {
    match ev
    case TypingDeleted(gone) =>
      if gone.Some? && gone.value.userId != "" then m - {gone.value.userId} else m
    case _ =>
      var row := ev.Row();
      if row.Some? && row.value.userId != "" && (user.None? || row.value.userId != user.value)
      then m[row.value.userId := row.value.isTyping]
      else m
  }

  /** The signed-in user never appears in their own map, and events about
      them, DELETE included, leave the map as it was. */
  lemma OwnEventsIgnored(m: TypingMap, ev: TypingEvent, me: Id)
    requires me !in m
    ensures me !in OnTypingEvent(m, ev, Some(me))
    ensures ev.Names(me) ==> OnTypingEvent(m, ev, Some(me)) == m
  {
  }

  /** `setTyping(isTyping)`: nothing without a chat id or a user; `true`
      upserts this user's row for the chat as typing now, `false` deletes it;
      no other row changes. The second component is the realtime change the
      write produces, if any. */
  function SetTyping(table: TypingTable, chatId: Option<Id>, user: Option<Id>, isTyping: bool, now: Millis)
    : (r: (TypingTable, Option<TypingEvent>))
    ensures !Present(chatId) || user.None? ==> r == (table, None)
    ensures Present(chatId) && user.Some? ==>
      var key := (chatId.value, user.value);
      && (forall k :: k != key ==> (k in r.0 <==> k in table))
      && (forall k :: k != key && k in r.0 ==> r.0[k] == table[k])
      && (isTyping ==> key in r.0 && r.0[key] == TypingRow(chatId.value, user.value, true, now))
      && (isTyping ==> r.1.Some? && !r.1.value.TypingDeleted? && r.1.value.Row() == Some(r.0[key]))
      && (isTyping ==> (r.1.value.TypingUpdated? <==> key in table))
      && (!isTyping ==> key !in r.0)
      && (!isTyping ==> (r.1.Some? <==> key in table))
      && (!isTyping && key in table ==> r.1 == Some(TypingDeleted(Some(table[key]))))
  {
    if !Present(chatId) || user.None? then (table, None)
    else
      var key := (chatId.value, user.value);
      if isTyping then
        var row := TypingRow(chatId.value, user.value, true, now);
        (table[key := row], Some(if key in table then TypingUpdated(Some(row)) else TypingInserted(Some(row))))
      else if key in table then
        (table - {key}, Some(TypingDeleted(Some(table[key]))))
      else
        (table, None)
  }

  /** Every row sits under its own (chat, user) key. */
  predicate KeysMatch(table: TypingTable)
  {
    forall k :: k in table ==> table[k].chatId == k.0 && table[k].userId == k.1
  }

  /** `viewer`'s map shows exactly the other users that have a row for `chat`,
      with that row's flag. */
  ghost predicate Mirrors(m: TypingMap, table: TypingTable, chat: Id, viewer: Option<Id>)
  {
    && (forall u :: u in m ==> u != "" && (viewer.None? || u != viewer.value) && (chat, u) in table)
    && (forall u :: u in m ==> m[u] == table[(chat, u)].isTyping)
    && (forall u :: (chat, u) in table && u != "" && (viewer.None? || u != viewer.value) ==> u in m)
  }

  /** The subscription is filtered on the chat: only events for its rows arrive. */
  function Deliver(m: TypingMap, ev: Option<TypingEvent>, chat: Id, viewer: Option<Id>): TypingMap
  {
    if ev.Some? && ev.value.Row().Some? && ev.value.Row().value.chatId == chat
    then OnTypingEvent(m, ev.value, viewer)
    else m
  }

  /** `setTyping` keeps every row under its own key. */
  lemma SetTypingKeepsKeys(table: TypingTable, chatId: Option<Id>, user: Option<Id>, isTyping: bool, now: Millis)
    requires KeysMatch(table)
    ensures KeysMatch(SetTyping(table, chatId, user, isTyping, now).0)
  {
  }

  /** A write for another chat changes none of `chat`'s rows and is not delivered. */
  lemma OtherChatKeepsMirror(
    m: TypingMap, table: TypingTable, chat: Id, viewer: Option<Id>,
    chatId: Option<Id>, user: Option<Id>, isTyping: bool, now: Millis)
    requires KeysMatch(table)
    requires Mirrors(m, table, chat, viewer)
    requires Present(chatId) && user.Some? && chatId.value != chat
    ensures Mirrors(Deliver(m, SetTyping(table, chatId, user, isTyping, now).1, chat, viewer),
                    SetTyping(table, chatId, user, isTyping, now).0, chat, viewer)
  {
    var (t', ev) := SetTyping(table, chatId, user, isTyping, now);
    var key := (chatId.value, user.value);
    assert Deliver(m, ev, chat, viewer) == m;
    forall u | (chat, u) in t' ensures (chat, u) in table && t'[(chat, u)] == table[(chat, u)] {
      assert (chat, u) != key;
    }
    forall u | (chat, u) in table ensures (chat, u) in t' {
      assert (chat, u) != key;
    }
  }

  /** A write for `chat` itself is delivered and the map follows it. */
  lemma SameChatKeepsMirror(
    m: TypingMap, table: TypingTable, chat: Id, viewer: Option<Id>,
    chatId: Option<Id>, user: Option<Id>, isTyping: bool, now: Millis)
    requires KeysMatch(table)
    requires Mirrors(m, table, chat, viewer)
    requires Present(chatId) && user.Some? && chatId.value == chat
    ensures Mirrors(Deliver(m, SetTyping(table, chatId, user, isTyping, now).1, chat, viewer),
                    SetTyping(table, chatId, user, isTyping, now).0, chat, viewer)
  {
    var (t', ev) := SetTyping(table, chatId, user, isTyping, now);
    var m' := Deliver(m, ev, chat, viewer);
    assert forall u :: u in m' ==> (chat, u) in t' && m'[u] == t'[(chat, u)].isTyping;
  }

  /** A peer's map keeps mirroring the table through every `setTyping`, by
      anyone, once the change it produces is delivered. */
  lemma SetTypingKeepsMirror(
    m: TypingMap, table: TypingTable, chat: Id, viewer: Option<Id>,
    chatId: Option<Id>, user: Option<Id>, isTyping: bool, now: Millis)
    requires KeysMatch(table)
    requires Mirrors(m, table, chat, viewer)
    ensures KeysMatch(SetTyping(table, chatId, user, isTyping, now).0)
    ensures Mirrors(Deliver(m, SetTyping(table, chatId, user, isTyping, now).1, chat, viewer),
                    SetTyping(table, chatId, user, isTyping, now).0, chat, viewer)
  {
    SetTypingKeepsKeys(table, chatId, user, isTyping, now);
    if Present(chatId) && user.Some? {
      if chatId.value == chat {
        SameChatKeepsMirror(m, table, chat, viewer, chatId, user, isTyping, now);
      } else {
        OtherChatKeepsMirror(m, table, chat, viewer, chatId, user, isTyping, now);
      }
    }
  }
}
